=== FILE: README.md ===
# kamui-cli core, modelled in Dafny

This project models the decision logic of `kamui`, the command-line client of
the Kamui platform:

- **Credential store** (`internal/config/config.go`): one JSON record with the
  access and refresh tokens, their expiry, the API URL and the OAuth client
  registration. It is loaded with defaults, saved, cleared and deleted.
- **Session lifecycle** (`internal/service/auth.go`): login, logout, and the
  four-way check run before every API call: not logged in, still valid,
  expired with no refresh token, or refresh. Two more copies of the check
  live in the project and app services. Both are modelled as written and
  proved to decide exactly as the original does.
- **OAuth authorization-code flow** (`internal/auth/oauth.go`):
  - the loopback port probe and redirect URI (section 7.3 of RFC 8252);
  - dynamic client registration (section 3 of RFC 7591);
  - the `state` nonce, hex-encoded as in section 8 of RFC 4648;
  - callback classification (sections 4.1.2, 4.1.2.1 and 10.12 of RFC 6749);
  - the authorization URL (section 4.1.1 of RFC 6749);
  - the token-request forms (sections 4.1.3 and 6 of RFC 6749).
- **API client** (`internal/api/client.go`): how a reply becomes a result or
  an `APIError`, the bearer-header rule, and the endpoint paths.
- **Project and app services** (`internal/service/project.go`,
  `internal/service/app.go`): obtaining an authenticated client, and the
  defaults filled into create requests.
- **`apps` and `projects` commands** (`internal/cmd/apps.go`,
  `internal/cmd/projects.go`):
  - project lookup by id or name;
  - how `apps delete` resolves its argument;
  - status and name fallbacks in `apps list`;
  - truncation, clamping and picker mappings in the create wizards;
  - the confirmation gate in front of every deletion.

Everything the code does with the outside world is a parameter:

- the clock (`now`, whole seconds);
- the file on disk (`Config.Disk`: missing, unreadable, or a stored record) and the outcome of a write (`fault`);
- which ports can be bound;
- the random bytes drawn for the state nonce;
- the first event the login waits for;
- the replies of the token, registration and API endpoints;
- the user's answers to prompts.

Every operation is a pure function of these inputs. It returns its result
together with the store it leaves behind and the requests it sends.

The modules follow the program:

- `Wrappers`, `Text` and `Errors` hold the Go idioms the rest needs:
  - `Option`/`Result`;
  - `%d` and hex formatting;
  - `fmt.Errorf` wrapping with its rendered text.
- `Config`, `OAuth` and `AuthService` cover the credential lifecycle.
- `Api` is the HTTP client.
- `Session`, `ProjectService` and `AppService` are the services.
- `Commands`, `AppsCmd`, `ProjectsCmd` and `AppsCases` are the command layer. `AppsCases` restates the command's table tests as lemmas.

Two behaviours of the code are easy to misread; the model follows the code:

- **Validity buffer.** `IsLoggedIn` (internal/config/config.go:146-149)
  applies a one-minute buffer: it rejects only when `now + 60s` is strictly
  *after* the expiry. An expiry exactly 60 seconds away therefore still
  counts as valid. `Config.IsLoggedIn` and `AuthService.PhaseOf` use `>= 60`.
- **Refresh with no expiry.** After a successful refresh whose `expires_in`
  is zero or negative, the old expiry is kept. If that expiry has already
  passed, the service reports success while the next token read fails with
  "token expired". This is stated as `AuthService.TokenAfterCheck` and shown
  on an example in `AuthService.StaleExpiryAfterRefresh`.

## Model

| member | source | states |
|---|---|---|
| Text.NatToString | internal/api/client.go:89 | `%d` of a non-negative number is a non-empty digit string with no leading zero unless the number is zero |
| Text.IntToString | internal/api/client.go:89 | `%d` of any integer, with a leading '-' exactly for negatives |
| Text.NatToStringRoundTrip | internal/api/client.go:89 | reading the digits of `%d` back gives the number |
| Text.IntToStringInjective | internal/api/client.go:89 | different status codes never print the same text |
| Text.HexEncode | internal/auth/oauth.go:359-365 | `hex.EncodeToString` yields two lower-case hex digits per byte |
| Text.HexRoundTrip | internal/auth/oauth.go:359-365 | decoding the hex text gives back the bytes |
| Text.HexEncodeInjective | internal/auth/oauth.go:359-365 | different byte strings give different hex text |
| Errors.ApiErrorText | internal/api/client.go:134-136 | `APIError.Error()` is "API error (status N): " followed by the message, with the status digits at a fixed place after the lead |
| Api.ErrorStatusOfReply | internal/api/client.go:139-146 | an API error comes from a received reply; `IsUnauthorized` holds exactly when its status is 401, `IsNotFound` exactly when it is 404, never both |
| Errors.WrapFraming | internal/service/auth.go:136 | a wrapped error's text starts with its context and ": " and ends with the hint (". Please run 'kamui login' again") |
| Errors.Message | internal/service/auth.go:136 | a wrapped error's text is its context, ": ", the cause's own text and the hint, so the cause can be cut back out; an API error renders as `APIError.Error()` |
| Errors.ApiErrorTextInjective | internal/api/client.go:134-136 | two API errors with the same text have the same status and message |
| Config.WithDefaultUrl | internal/config/config.go:81-91 | the result always has an API URL and differs from the input at most in an API URL that was empty |
| Config.Load | internal/config/config.go:69-92 | a missing file loads as a blank record with the default API URL; a stored record loads unchanged except that an empty API URL becomes the default; only an unreadable file fails |
| Config.Save | internal/config/config.go:95-109 | a save succeeds exactly when the write does, and loading afterwards gives the saved record with the API URL defaulted |
| Config.ReloadIsStable | internal/config/config.go:69-109 | saving what was loaded and loading again gives the same record |
| Config.Clear | internal/config/config.go:112-124 | both tokens and the expiry are blanked; client id, client secret and API URL are kept |
| Config.Delete | internal/config/config.go:127-133 | afterwards no file exists; a missing file is not an error |
| Config.DeleteIdempotent | internal/config/config.go:127-133 | deleting twice ends in the same result as deleting once |
| Config.IsLoggedIn | internal/config/config.go:136-152 | logged in exactly when an access token is stored and no instant of the next 60 seconds is after the expiry |
| Config.GetAccessToken | internal/config/config.go:156-172 | the stored token exactly when one is stored and `now` is not after the expiry (no buffer); otherwise "not logged in" or "token expired" |
| Config.LoggedInYieldsToken | internal/config/config.go:136-172 | if `IsLoggedIn` holds now, reading the token succeeds at any instant of the next 60 seconds |
| Config.BufferWindow | internal/config/config.go:136-172 | with under 60 seconds left, the token still reads while `IsLoggedIn` already fails: the buffer only makes the check stricter |
| Config.GetAPIURL | internal/config/config.go:175-186 | the loaded API URL, never empty; fails only on an unreadable file |
| Config.GetClientCredentials | internal/config/config.go:190-197 | the stored client id and secret; both empty when no file exists |
| Config.SaveClientCredentials | internal/config/config.go:200-210 | only client id and secret change |
| Config.SaveTokens | internal/config/config.go:213-227 | both tokens are overwritten; the expiry becomes `now + expiresIn` only for a positive `expiresIn` and is kept otherwise; the registration and API URL are untouched |
| OAuth.GetClientCredentials | internal/auth/oauth.go:191-199 | nil exactly when no client id is set, otherwise the id and secret held |
| OAuth.NewFlow | internal/auth/oauth.go:66-73 | a new flow keeps the API URL, uses the default callback port 9876 and holds no client credentials |
| OAuth.SetClientCredentials | internal/auth/oauth.go:76-80 | the flow then reports exactly the credentials set, none for an empty id; API URL and port are kept |
| OAuth.ProbePorts | internal/auth/oauth.go:244-253 | the smallest bindable port of the range, or "no available port found" when none is bindable |
| OAuth.FindAvailablePort | internal/auth/oauth.go:244-253 | succeeds exactly when a port of the 10-port window from the callback port is bindable, and returns the smallest |
| OAuth.RedirectUriInjective | internal/auth/oauth.go:136 | different ports give different `http://localhost:<port>/callback` URIs |
| OAuth.RegistrationRequestFor | internal/auth/oauth.go:83-91 | posted to `<api>/oauth/register` with client name "Kamui CLI", the one redirect URI and scope "full"; both grant types the flow later uses are registered |
| OAuth.RegisterClient | internal/auth/oauth.go:83-124 | accepted exactly on status 200 or 201 with a decodable body, adopting its id and secret; any other status is an error naming it |
| OAuth.GenerateState | internal/auth/oauth.go:359-365 | 32 lower-case hex characters that decode to the 16 bytes drawn; fails only when the draw fails |
| OAuth.HandleCallback | internal/auth/oauth.go:259-291 | a code is delivered exactly when the state matches, no error is reported and a code is present; a wrong state is "state mismatch" (HTTP 400) whatever else the request holds; then the OAuth error, then the missing code |
| OAuth.ForgedStateDeliversNothing | internal/auth/oauth.go:261-266 | a callback with the wrong state never delivers a code |
| OAuth.BuildAuthURL | internal/auth/oauth.go:304-313 | `<api>/oauth/authorize` with exactly `client_id`, `redirect_uri`, `response_type=code`, `scope=full` and `state` |
| OAuth.ClientFields | internal/auth/oauth.go:205-211 | `client_id` always; `client_secret` exactly when the secret is non-empty |
| OAuth.RefreshRequest | internal/auth/oauth.go:205-211 | the refresh form: `grant_type=refresh_token`, the refresh token and the client fields, posted to `<api>/oauth/token` |
| OAuth.ExchangeRequest | internal/auth/oauth.go:319-326 | the exchange form: `grant_type=authorization_code`, code, redirect URI and the client fields |
| OAuth.ReadTokenReply | internal/auth/oauth.go:226-240 | success exactly on status 200 with a decodable body, copying access token, refresh token, `expires_in` and scope; any other status is "<operation> failed with status N" |
| OAuth.RefreshTokens | internal/auth/oauth.go:202-241 | sends the refresh form and reads the reply as "token refresh" |
| OAuth.ExchangeCodeForTokens | internal/auth/oauth.go:316-356 | sends the exchange form and reads the reply as "token exchange" |
| OAuth.AwaitCallback | internal/auth/oauth.go:177-187 | only a callback that passes the handler's checks leads to the token exchange, and the result is then the exchange reply read as "token exchange"; otherwise the handler's error, the cancellation reason or "authentication timed out"; the listener is shut down whatever happens |
| OAuth.Authorize | internal/auth/oauth.go:150-187 | state drawn, server started on the port, browser opened on the authorization URL, then the wait decides the result; a failed draw is "failed to generate state" and stops before the server |
| OAuth.Login | internal/auth/oauth.go:129-188 | no free port is "failed to find available port" before anything else; a failed registration is "failed to register client"; a failed draw is "failed to generate state"; then the wait decides; a client id already held is kept; success returns exactly the token endpoint's reply for a callback that carried the expected state and a code |
| OAuth.LoginRegistersOnlyWithoutClient | internal/auth/oauth.go:139-147 | registration is the first step exactly when no client id is held, it uses the chosen port's redirect URI, and the registered credentials are adopted |
| OAuth.RegistrationFailureStopsEarly | internal/auth/oauth.go:139-147 | a failed registration ends the login before any state is drawn or server started |
| OAuth.ListenerAlwaysShutDown | internal/auth/oauth.go:156-187 | whenever the callback server was started, shutting it down is the last step |
| AuthService.IsLoggedIn | internal/service/auth.go:94-102 | true exactly when the store loads and holds either token, with no expiry check |
| AuthService.StoreLoginImpliesServiceLogin | internal/service/auth.go:94-102 | the store's buffered check implies the service's token-presence check |
| AuthService.EnsureAuthenticated | internal/service/auth.go:105-145 | per phase: no tokens is "not logged in"; a valid token succeeds; no refresh token is "session expired"; otherwise exactly one refresh with the stored refresh token and registration, after which the new tokens are saved on success and the store is unchanged on failure, with the relogin hint |
| AuthService.StoreCheckIsAccessValid | internal/service/auth.go:117-119 | the store's `IsLoggedIn` holds exactly in the "valid" phase |
| AuthService.ValidSessionYieldsToken | internal/service/auth.go:117-154 | a check that succeeds without refreshing leaves a token readable for the next 60 seconds |
| AuthService.TokenAfterCheck | internal/service/auth.go:131-144 | after a successful check the token read fails only if a refresh returned an empty token, or a non-positive `expires_in` while the old expiry has passed |
| AuthService.StaleExpiryAfterRefresh | internal/config/config.go:222-224 | an example of the latter: the check succeeds, then the read says "token expired" |
| AuthService.GetAccessToken | internal/service/auth.go:148-154 | runs the check, then reads the token from the store it left |
| AuthService.LoginFlow | internal/service/auth.go:32-49 | the login uses the stored API URL, and the stored registration only when a client id is stored |
| AuthService.RefreshFlow | internal/service/auth.go:131-132 | the refresh uses the stored API URL, the default port, and the stored client id and secret; the flow holds no registration exactly when no client id is stored |
| AuthService.StoreLogin | internal/service/auth.go:52-70 | on success the run's tokens and the flow's client id are stored, the secret only with a client id, the expiry only for a positive `expires_in`, and the API URL is kept; on failure the tokens and expiry are unchanged |
| AuthService.Login | internal/service/auth.go:24-71 | refused with "already logged in" when either token is stored; on success the store holds the OAuth run's tokens and registration with the same expiry and API URL rules as `StoreLogin`; on failure the tokens are unchanged |
| AuthService.Logout | internal/service/auth.go:74-90 | succeeds exactly when logged in and the write works; afterwards nobody is logged in and the registration and API URL are kept; with no tokens it is "not logged in" and nothing changes |
| AuthService.LoggedOutStaysOut | internal/service/auth.go:74-145 | after a logout the check says "not logged in" without refreshing, and a second logout fails |
| AuthService.LoginThenLoginRefused | internal/service/auth.go:27-29 | a second login after a successful one is refused |
| Api.WithBearer | internal/api/client.go:62-64 | an `Authorization: Bearer <token>` header exactly when the token is non-empty; other headers untouched |
| Api.BuildRequest | internal/api/client.go:41-64 | the URL is the base URL followed by the path; JSON content type and accept headers, plus the bearer rule |
| Api.BearerRoundTrip | internal/api/client.go:62-64 | the client's token can be recovered from any request it builds |
| Api.StatusError | internal/api/client.go:79-91 | the body's message when non-empty, else "request failed with status N"; never empty |
| Api.Classify | internal/api/client.go:66-100 | a status of 400 or more is an `APIError`; below that success, with the body decoded only when a result is wanted and the body is non-empty |
| Api.Request | internal/api/client.go:41-101 | sends the built request and classifies the reply |
| Api.GetInto | internal/api/client.go:104-107 | a GET succeeds exactly when the reply classifies as success; the value is the decoded body, or the caller's zero value when the body is empty |
| Api.Send | internal/api/client.go:109-122 | a call whose reply body is ignored succeeds exactly when a reply arrives with a status below 400; otherwise the classified error |
| Api.ItemPath | internal/api/client.go:262 | `<collection>/<id>` starts with the collection and a slash and ends in the id |
| Api.ItemId | internal/api/client.go:262 | an id is read exactly from a path under the collection, and writing it back gives the path |
| Api.BranchesPath | internal/api/client.go:221 | starts with `/api/repositories/`, ends with `/branches`, and holds `owner/repo` in between |
| Api.BranchesOwnerRepo | internal/api/client.go:221 | a pair read from a path has a slash-free owner and rebuilds that path |
| Api.ItemPathRoundTrip | internal/api/client.go:261-293 | the id can be read back from `/api/projects/{id}` and `/api/apps/{id}` |
| Api.BranchesPathRoundTrip | internal/api/client.go:221 | owner and repository can be read back from the branches path when the owner holds no '/' |
| Api.BranchesPathAmbiguous | internal/api/client.go:221 | without that proviso two different owner/repository pairs give the same path |
| Api.GetInstallations | internal/api/client.go:211-217 | GET `/api/installations`; succeeds exactly when the reply classifies as success, with the decoded list, or an empty list for an empty body; otherwise the classified error |
| Api.GetBranches | internal/api/client.go:220-227 | GET of the owner/repository branches path; the decoded list, or an empty list for an empty body; otherwise the classified error |
| Api.CreateApp | internal/api/client.go:230-236 | POST of the request to `/api/apps`; the decoded response, or a blank response for an empty body; otherwise the classified error |
| Api.CreateProject | internal/api/client.go:252-258 | POST to `/api/projects`, reply body ignored; success exactly when the reply classifies as success, otherwise the classified error |
| Api.DeleteProject | internal/api/client.go:261-264 | DELETE `/api/projects/{id}`; success exactly on a received status below 400, otherwise the classified error |
| Api.DeleteApp | internal/api/client.go:267-270 | DELETE `/api/apps/{id}`; success exactly on a received status below 400, otherwise the classified error |
| Api.GetApp | internal/api/client.go:286-293 | GET `/api/apps/{id}`, whose id reads back as the requested one; the decoded detail, or a blank detail for an empty body; otherwise the classified error |
| Api.CreateStaticApp | internal/api/client.go:310-316 | POST to `/api/static-apps`; the decoded response, or a blank response for an empty body; otherwise the classified error |
| Api.BaseName | internal/api/client.go:355 | `filepath.Base` of the upload path: "." for an empty path, "/" for a path of slashes only, otherwise the last slash-free element after trailing slashes are dropped |
| Api.TrimTrailingSlashes | internal/api/client.go:355 | the longest prefix not ending in '/'; only slashes are cut |
| Api.BaseNameOfJoin | internal/api/client.go:355 | the base name of `dir/name` and of `name` alone is `name` for a slash-free name |
| Api.CreateStaticAppUpload | internal/api/client.go:328-416 | a file that cannot be opened, or whose content cannot be copied, sends nothing and fails with "failed to open file" or "failed to copy file content"; otherwise the four form fields and a file part named "file" carrying the path's base name go to the upload endpoint, with `Authorization: Bearer <token>` exactly for a non-empty token and no JSON accept header; a status of 400 or more is an `APIError`; below that the body is always decoded, so an empty body is "failed to parse response" |
| Api.EmptyReplyDiffers | internal/api/client.go:409-413 | an empty reply below 400 is a blank response for `CreateStaticApp` but a parse error for the upload |
| Session.Through | internal/service/project.go:89-101 | with no client nothing is sent and the error passes unchanged; otherwise the call's error is wrapped with the service's context |
| ProjectService.EnsureAuthenticated | internal/service/project.go:26-66 | the service's own copy of the check: success implies the store loaded, and at most one refresh is sent |
| ProjectService.SameDecisionAsAuthService | internal/service/project.go:26-66 | the copy gives the same result, store and refreshes as `AuthService.EnsureAuthenticated` on every input |
| ProjectService.GetApiClient | internal/service/project.go:69-86 | an authentication failure passes unchanged; then the unbuffered token read, wrapped as "failed to get access token"; a client holds the stored non-empty token and API URL |
| ProjectService.ListProjects | internal/service/project.go:89-101 | no request without a client; otherwise GET `/api/projects`, returning the decoded list (empty for an empty body) or the call's error wrapped as "failed to fetch projects" |
| ProjectService.GetProject | internal/service/project.go:104-116 | no request without a client; otherwise GET of a path whose id reads back as the requested one, returning the decoded project or the call's error wrapped as "failed to fetch project" |
| AppService.EnsureAuthenticated | internal/service/app.go:26-62 | the app service's copy of the check, with the same guarantees as the project service's |
| AppService.SameDecisionAsAuthService | internal/service/app.go:26-62 | the copy decides exactly as `AuthService.EnsureAuthenticated` |
| AppService.GetApiClient | internal/service/app.go:65-81 | as in the project service |
| AppService.GetInstallations | internal/service/app.go:84-107 | no request without a client, whose error passes unchanged; otherwise GET `/api/installations`, returning the decoded list or the error wrapped as "failed to fetch installations" |
| AppService.GetBranches | internal/service/app.go:110-131 | no request without a client; otherwise GET of the owner/repository branches path, returning the decoded list or the error wrapped as "failed to fetch branches" |
| AppService.FillAppDefaults | internal/service/app.go:169-177 | replicas 0 becomes 1, a nil environment map becomes empty, an empty health check becomes `/health`; every other field passes unchanged |
| AppService.FillAppDefaultsIdempotent | internal/service/app.go:169-177 | filling defaults twice is filling them once |
| AppService.AppRequestFor | internal/service/app.go:141-177 | each input field lands in its request field unchanged, the app type is "dynamic", and the defaults apply |
| AppService.AppRequestForSameExactly | internal/service/app.go:141-177 | two inputs give the same request exactly when they agree on every field after defaulting |
| AppService.CreateApp | internal/service/app.go:134-188 | one POST of that request; the output carries the response's `app_id` and the input's app name; a failure is wrapped as "failed to create app" |
| AppService.ListApps | internal/service/app.go:190-204 | GET of the project; the result is its apps; a failure is wrapped as "failed to fetch project" |
| AppService.DetailOf | internal/service/app.go:218-228 | the detail's id is the requested one and its status the reply's `pod_status` |
| AppService.GetApp | internal/service/app.go:207-229 | GET `/api/apps/{id}`; the detail carries the requested id and the pod status; a failure is wrapped as "failed to fetch app" |
| AppService.DeleteApp | internal/service/app.go:232-243 | DELETE `/api/apps/{id}`; succeeds exactly on a status below 400; a client failure passes unchanged, a call failure is wrapped as "failed to delete app" |
| AppService.StaticAppRequestFor | internal/service/app.go:254-275 | replicas 0 becomes 1, spec "" becomes "nano", deploy type "" becomes "github"; every other field is copied |
| AppService.StaticDefaultsFixExplicitValues | internal/service/app.go:267-275 | explicit values pass through unchanged |
| AppService.CreateStaticApp | internal/service/app.go:246-286 | one POST to `/api/static-apps`; the output carries the response's `app_id` and the input's app name; a failure is wrapped as "failed to create static app" |
| AppService.UploadRequestFor | internal/service/app.go:297-310 | replicas 0 becomes 1 and spec "" becomes "nano" |
| AppService.CreateStaticAppUpload | internal/service/app.go:289-321 | the form carries the input's project id and app name and the defaulted replicas and spec, so never replicas "0" or an empty spec; the output carries the response's `app_id`; a failure of the call is wrapped as "failed to create static app" |
| Commands.FindProject | internal/cmd/apps.go:124-134 | the first project in list order whose id or name is the argument; "project not found" exactly when none is |
| Commands.FindProjectIsFirst | internal/cmd/projects.go:461-473 | a matching project with no match before it is the one found |
| AppsCmd.PickProject | internal/cmd/apps.go:107-134 | a fetch error is wrapped; an empty list is "no projects found"; `--project` picks the first project in list order whose id or name it is; otherwise the choice is interactive |
| AppsCmd.BranchStepFor | internal/cmd/apps.go:243-259 | no branches means no question; otherwise all branch names are offered with the first "main" or "master" preselected, or none when neither exists |
| AppsCmd.ChosenBranch | internal/cmd/apps.go:243-259 | with no branches the branch is "main"; otherwise the user's pick |
| AppsCmd.ClampReplicas | internal/cmd/apps.go:322-326 | at least 1, and unchanged when already at least 1 |
| AppsCmd.TruncateString | internal/cmd/apps.go:557-562 | short strings pass unchanged; longer ones keep their first `maxLen` characters and end in "..." |
| AppsCmd.StatusLabel | internal/cmd/apps.go:511-520 | running beats error beats stopped; with no positive count the previous label stays |
| AppsCmd.Describe | internal/cmd/apps.go:509-542 | the detail overrides name, URL and status only when fetched with a non-empty display name; otherwise the app name, else "(unnamed)"; the name shown is never empty |
| AppsCmd.RunList | internal/cmd/apps.go:471-553 | a fetch error is wrapped; otherwise the first matching project's apps, one row each in order, or "project not found" |
| AppsCmd.Entries | internal/cmd/apps.go:633-651 | the first project's apps come first, in order, and no entry carries a display name |
| AppsCmd.EntriesMembership | internal/cmd/apps.go:633-651 | the visiting order holds every app of every project, and nothing else |
| AppsCmd.NameHitIsPrefix | internal/cmd/apps.go:669 | the "equal or starts with" test is exactly "starts with" |
| AppsCmd.FirstIdFrom | internal/cmd/apps.go:633-650 | the first position at or after `from` whose app id is the argument, or none when no such position has it |
| AppsCmd.Filter | internal/cmd/apps.go:663-700 | the accepted elements: everything kept is in the input and accepted, and every accepted position is kept |
| AppsCmd.FilterConcat | internal/cmd/apps.go:663-700 | filtering a concatenation concatenates the filtered parts, so the matches appear in visiting order |
| AppsCmd.FilterSeveral | internal/cmd/apps.go:663-700 | the matches number two or more exactly when two positions match |
| AppsCmd.NameMatches | internal/cmd/apps.go:663-679 | exactly the apps whose `app_name` starts with the argument |
| AppsCmd.DisplayMatches | internal/cmd/apps.go:683-700 | exactly the apps whose fetched display name is the argument |
| AppsCmd.Resolve | internal/cmd/apps.go:633-731 | the first app with the argument as its id wins; otherwise the single name match; otherwise the single display-name match, considered only when no name matches |
| AppsCmd.ResolveErrors | internal/cmd/apps.go:702-726 | "app not found" exactly when nothing matches; the ambiguity error exactly when the criterion in force matches two positions |
| AppsCmd.RunDelete | internal/cmd/apps.go:614-784 | the resolved app is deleted exactly when its detail was fetched and either `--yes` was given or the user said yes; it is cancelled exactly when the user said no, and then deletes nothing; a failed detail fetch is wrapped as "failed to fetch app details"; the prompt shows the display name, else the id; a failed confirmation prompt returns its error unchanged |
| AppsCmd.IdWinsOverNames | internal/cmd/apps.go:633-660 | an app whose id is the argument is the one deleted, whatever the names |
| AppsCmd.AmbiguousNamesDeleteNothing | internal/cmd/apps.go:706-726 | two name matches and no id match: nothing is deleted, the user is asked for an id |
| AppsCases.ListByProjectName | internal/cmd/apps_test.go:104-124 | the listing shows the detail's display name and running status |
| AppsCases.ListByProjectId | internal/cmd/apps_test.go:126-143 | a project named by id; a detail without status leaves "unknown" |
| AppsCases.ListEmptyProject | internal/cmd/apps_test.go:145-156 | a project without apps lists no rows |
| AppsCases.ListUnknownProject | internal/cmd/apps_test.go:158-163 | an unknown project is "project not found" |
| AppsCases.DeleteById | internal/cmd/apps_test.go:255-275 | deleting by exact id with `--yes` |
| AppsCases.DeleteByNamePrefix | internal/cmd/apps_test.go:277-296 | deleting by a name prefix |
| AppsCases.DeleteUnknownApp | internal/cmd/apps_test.go:298-304 | no match is "app not found" |
| AppsCases.DeletePrefixAmbiguity | internal/cmd/apps_test.go:306-325 | two prefix matches are ambiguous |
| AppsCases.DeleteDisplayNameAmbiguity | internal/cmd/apps_test.go:327-352 | one display name in two projects is ambiguous |
| AppsCases.DeleteFails | internal/cmd/apps_test.go:354-373 | the deletion's error is returned as it is, for the app that was resolved |
| ProjectsCmd.OutputFormat | internal/cmd/projects.go:110-122 | JSON exactly when the effective format (own flag, else the root's) is "json" |
| ProjectsCmd.RunList | internal/cmd/projects.go:100-123 | the service's error unwrapped; otherwise all projects in the chosen format |
| ProjectsCmd.RunGet | internal/cmd/projects.go:195-220 | the service's error unwrapped; otherwise the project in the chosen format |
| ProjectsCmd.TruncateDescription | internal/cmd/projects.go:344-346 | a prefix of the description of length at most 80, the whole of it when it fits |
| ProjectsCmd.TruncateDescriptionIdempotent | internal/cmd/projects.go:344-346 | truncating twice is truncating once |
| ProjectsCmd.MapGet | internal/cmd/projects.go:349-382 | indexing a Go map: a missing label reads as "" |
| ProjectsCmd.PlanTypeOf | internal/cmd/projects.go:349-364 | Free is "free", Pro is "pro", anything else "" |
| ProjectsCmd.RegionOf | internal/cmd/projects.go:367-382 | Tokyo is "tokyo", Singapore is "singapore", anything else "" |
| ProjectsCmd.PickersAreFaithful | internal/cmd/projects.go:349-382 | every offered label has a value and different labels have different values |
| ProjectsCmd.CreateInputFor | internal/cmd/projects.go:387-392 | the name as typed, the truncated description, and a non-empty plan and region exactly for offered labels |
| ProjectsCmd.RunDelete | internal/cmd/projects.go:452-510 | the first project named by id or name is deleted by its id, exactly when `--yes` was given or the user said yes; no match is "project not found" and deletes nothing; a no is "Cancelled."; a failed confirmation prompt returns its error unchanged |
| ProjectsCmd.DeleteByNameUsesId | internal/cmd/projects.go:504 | naming a project deletes it by its id |
| ProjectsCmd.DeleteCases | internal/cmd/apps_test.go:463-513 | the delete command's table cases: by name, by id, not found, and a failing deletion whose error is returned |

## Left out

- Concurrency in the login (the goroutine server, the `select` over code, error, context and the 5-minute timer): the first event is an input (`OAuth.WaitEvent`). A timeout is that event; the timer itself is not modelled.
- Sockets: whether a port can be bound is an input predicate.
- `crypto/rand`: the drawn bytes are an input.
- The browser call: opening it is a recorded step. `successHTML` and the console text are not modelled.
- HTTP transport, JSON encoding and decoding, `url.Values` percent-encoding and multipart encoding: a reply is an abstract exchange whose decoded body is an input, and forms are maps from field to value.
- Failures of `json.Marshal` and of `http.NewRequestWithContext` (a malformed base URL): these are not modelled separately. A send failure (`Api.Exchange.SendFailed`) covers the request that never leaves.
- File-system mechanics: home-directory lookup, directory and file permissions, and the JSON layout. The store is `Config.Disk`. Read and parse errors are both `Unreadable`. A failed write leaves the disk as it was.
- Time: only whole seconds are modelled.
- Repeated reads within one operation: the code calls `Load()` and `time.Now()` afresh at each step; each modelled operation reads one disk and one `now`. So the expiry a refresh stores is `now + expires_in` for the instant of the check, not for a later `time.Now()` inside `SaveTokens` (internal/config/config.go:222-224), and no other process can change the file between two reads.
- Config.SaveTokens: does not model the overflow of Go's 64-bit nanosecond `time.Duration` for an `expires_in` above about 292 years, because such a reply is not a realistic token lifetime.
- Prompts and terminal output: `survey` prompts, cobra flag parsing, `Sscanf` of the replica count, tabwriter and JSON printing, and every printed message. Prompt answers are inputs; the outputs are the values the commands would print.
- Interactive project choice: in `apps create` the model stops at offering all projects.
- AppsCmd.PickProject: the interactive branch does not model the labels `name (first 8 bytes of id)` (internal/cmd/apps.go:141). That slice panics for an id shorter than 8 bytes. Two projects with the same label overwrite each other in the label map (internal/cmd/apps.go:142-143). The model returns the whole list and leaves the choice out.
- The rest of the `apps create` wizard (language, deploy type, directory, commands, environment variables) and the static-app and upload commands: the zip helpers these use are not part of this model.
- AppsCmd.RunList: the per-app detail fetch is a function of the app id, so repeated fetches of one app always agree. The code fetches again each time, and the answers could differ.
- AppsCmd.Resolve: the same holds for the display-name search (internal/cmd/apps.go:683-700) and for the extra fetch that prints an ambiguous match's display name (internal/cmd/apps.go:706-723), whose output is not modelled.
- AppsCmd.RunDelete: the detail fetched for the prompt (internal/cmd/apps.go:734) is taken to agree with the one the display-name search saw (internal/cmd/apps.go:688). A server that answered the first fetch and failed the second would make the code fail with "failed to fetch app details"; the model follows that error path, but it cannot give the two fetches different answers.
- AppsCmd.TruncateString: counts and cuts Dafny characters, where Go's `len(s)` and `s[:maxLen]` count UTF-8 bytes (internal/cmd/apps.go:558-561). For ASCII text the two agree. For other text Go cuts at a different place and may leave half a character; the model never produces such a tail. Strings are sequences of characters throughout this model, with no UTF-8 encoding.
- Api.BaseName: splits the path at '/' only, as `filepath.Base` does on Unix-like systems. On Windows `filepath.Base` also splits at '\\' and drops a volume name such as `C:`; that variant is not modelled.
- Api.CreateStaticAppUpload: the multipart writes into an in-memory buffer (internal/api/client.go:341-365) cannot fail, so their error branches are not modelled; opening the file and copying its content are (`Api.LocalFile`).
- ProjectsCmd.TruncateDescription: the same difference for `description[:80]` (internal/cmd/projects.go:344-345). The model keeps 80 characters where Go keeps 80 bytes.
- `containsIgnoreCase` (internal/cmd/apps.go:565-567): nothing calls it.
- `projectService.CreateProject` and `DeleteProject`: they are not part of this model. The project commands take their outcome as an input; the API calls they would make are `Api.CreateProject` and `Api.DeleteProject`.
- `internal/cmd/root.go`, `login.go`, `logout.go`, `cmd/kamui/main.go` and `internal/di/container.go`: command wiring only.

=== FILE: api.dfy ===
/** The HTTP client of the Kamui API (internal/api/client.go): how a request
    is addressed and authorized, how a reply is classified, and the
    endpoint paths. The transport is an input: a request either fails to
    go out, fails while its body is read, or brings back a status together
    with what decoding its body gives. JSON encoding is not modelled; a
    request body is the typed record it would encode. */
module Api {
  import opened Wrappers
  import opened Text
  import opened Errors
  import opened Resources

  datatype Client = Client(baseUrl: string, token: string)

  datatype Method = Get | Post | Put | Delete

  // ---------------------------------------------------------------------
  // Request and response records

  /** `CreateAppRequest`; a nil environment map is `None`. */
  datatype CreateAppRequest = CreateAppRequest(
    projectId: string,
    appName: string,
    appDisplayName: string,
    replicas: int,
    envVars: Option<map<string, string>>,
    preCommand: string,
    startCommand: string,
    setupCommand: string,
    healthCheckEndpoint: string,
    deployType: string,
    appType: string,
    languageType: string,
    organizationName: string,
    ownerType: string,
    repositoryName: string,
    repositoryBranch: string,
    directory: string,
    databaseId: string,
    appSpecType: string,
    status: Option<ProjectStatus>)

  datatype CreateStaticAppRequest = CreateStaticAppRequest(
    appName: string,
    projectId: string,
    replicas: int,
    appSpecType: string,
    deployType: string,
    organizationName: string,
    ownerType: string,
    repositoryName: string,
    repositoryBranch: string,
    directory: string)

  datatype CreateStaticAppUploadRequest = CreateStaticAppUploadRequest(
    projectId: string, appName: string, replicas: int, appSpecType: string, filePath: string)

  datatype CreateProjectRequest = CreateProjectRequest(name: string, description: string, planType: string, region: string)

  datatype AppCreateResponse = AppCreateResponse(message: string, appId: string)

  datatype AppDetailResponse = AppDetailResponse(
    displayName: string,
    podStatus: Option<ProjectStatus>,
    languageType: string,
    appSpec: string,
    appType: string,
    githubOrgRepo: string,
    githubBranch: string,
    url: string,
    customDomain: string)

  /** What a request carries. */
  datatype Payload =
    | NoBody
    | AppBody(app: CreateAppRequest)
    | StaticAppBody(staticApp: CreateStaticAppRequest)
    | ProjectBody(project: CreateProjectRequest)
    | Multipart(fields: map<string, string>, fileField: string, fileName: string)

  datatype HttpRequest = HttpRequest(verb: Method, url: string, headers: map<string, string>, body: Payload)

  /** A reply that arrived: its status, whether its body is empty, the
      `message` of the body when it decodes as an error document (`None` when
      it does not), and the outcome of decoding it as the expected record. */
  datatype Response<T> = Response(status: int, bodyEmpty: bool, errorMessage: Option<string>, decoded: Result<T, string>)

  datatype Exchange<T> = SendFailed(reason: string) | ReadFailed(reason: string) | Received(response: Response<T>)

  /** One API call: the request sent (none when the call stopped before
      sending) and its result. */
  datatype Call<T> = Call(request: Option<HttpRequest>, result: Outcome<T>)

  // ---------------------------------------------------------------------
  // Addressing and authorization

  const BearerLead: string := "Bearer "

  /** The bearer-token rule: an `Authorization` header exactly when the
      client holds a token. */
  function WithBearer(headers: map<string, string>, token: string): (h: map<string, string>)
    ensures "Authorization" in h <==> token != "" || "Authorization" in headers
    ensures token != "" ==> h["Authorization"] == BearerLead + token
    ensures forall k :: k in headers && k != "Authorization" ==> k in h && h[k] == headers[k]
    ensures forall k :: k in h && k != "Authorization" ==> k in headers
  {
    if token != "" then headers["Authorization" := BearerLead + token] else headers
  }

  /** The request `Request` builds: the URL is the base URL followed by the
      path, both JSON headers are set, and the bearer rule applies. */
  function BuildRequest(c: Client, verb: Method, path: string, body: Payload): (r: HttpRequest)
    ensures r.url == c.baseUrl + path && r.verb == verb && r.body == body
    ensures r.headers.Keys == {"Content-Type", "Accept"} + (if c.token != "" then {"Authorization"} else {})
    ensures r.headers["Content-Type"] == "application/json" && r.headers["Accept"] == "application/json"
    ensures "Authorization" in r.headers ==> r.headers["Authorization"] == BearerLead + c.token
  {
    var headers := map["Content-Type" := "application/json", "Accept" := "application/json"];
    HttpRequest(verb, c.baseUrl + path, WithBearer(headers, c.token), body)
  }

  /** The client's token can be read back from any request it builds. */
  lemma BearerRoundTrip(c: Client, verb: Method, path: string, body: Payload)
    ensures var h := BuildRequest(c, verb, path, body).headers;
      c.token == (if "Authorization" in h then h["Authorization"][|BearerLead|..] else "")
  {
  }

  // ---------------------------------------------------------------------
  // Classification of replies

  /** The `APIError` for an error status: the body's message when it decodes
      and is non-empty, otherwise a message naming the status. Either way the
      message is never empty. */
  function StatusError(status: int, errorMessage: Option<string>): (e: ApiError)
    ensures e.statusCode == status
    ensures e.message != ""
    ensures errorMessage.Some? && errorMessage.value != "" ==> e.message == errorMessage.value
    ensures errorMessage.None? || errorMessage.value == "" ==>
      e.message == "request failed with status " + IntToString(status)
  {
    match errorMessage
    case Some(m) => if m != "" then ApiError(status, m) else ApiError(status, "request failed with status " + IntToString(status))
    case None => ApiError(status, "request failed with status " + IntToString(status))
  }

  /** The classification `Request` makes: any status of 400 or more is an
      `APIError`; below that the call succeeds, and the body is decoded only
      when the caller wants a result and the body is not empty (`None`: the
      caller's record is left as it was). */
  function Classify<T>(ex: Exchange<T>, wantsResult: bool): (r: Outcome<Option<T>>)
    ensures (r.Failure? && r.error.Api?) <==> ex.Received? && ex.response.status >= 400
    ensures ex.Received? && ex.response.status >= 400 ==>
      r == Failure(Api(StatusError(ex.response.status, ex.response.errorMessage)))
    ensures r.Success? <==>
      && ex.Received?
      && ex.response.status < 400
      && (!wantsResult || ex.response.bodyEmpty || ex.response.decoded.Success?)
    ensures r.Success? ==> (r.value.Some? <==> wantsResult && !ex.response.bodyEmpty)
    ensures r.Success? && r.value.Some? ==> r.value.value == ex.response.decoded.value
  {
    match ex
    case SendFailed(reason) => Failure(Wrap("request failed", Msg(reason), ""))
    case ReadFailed(reason) => Failure(Wrap("failed to read response", Msg(reason), ""))
    case Received(resp) =>
      if resp.status >= 400 then Failure(Api(StatusError(resp.status, resp.errorMessage)))
      else if wantsResult && !resp.bodyEmpty then
        match resp.decoded
        case Failure(reason) => Failure(Wrap("failed to parse response", Msg(reason), ""))
        case Success(v) => Success(Some(v))
      else Success(None)
  }

  /** `Client.Request`. */
  function Request<T>(c: Client, verb: Method, path: string, body: Payload, wantsResult: bool, ex: Exchange<T>): (r: Call<Option<T>>)
    ensures r.request == Some(BuildRequest(c, verb, path, body))
    ensures r.result == Classify(ex, wantsResult)
  {
    Call(Some(BuildRequest(c, verb, path, body)), Classify(ex, wantsResult))
  }

  /** A GET into a record whose untouched value is `zero`. */
  function GetInto<T>(c: Client, path: string, zero: T, ex: Exchange<T>): (r: Call<T>)
    ensures r.request == Some(BuildRequest(c, Get, path, NoBody))
    ensures r.result.Success? <==> Classify(ex, true).Success?
    ensures r.result.Success? ==>
      r.result.value == (if ex.response.bodyEmpty then zero else ex.response.decoded.value)
    ensures r.result.Failure? ==> r.result.error == Classify(ex, true).error
  {
    var call := Request(c, Get, path, NoBody, true, ex);
    match call.result
    case Failure(e) => Call(call.request, Failure(e))
    case Success(v) => Call(call.request, Success(v.GetOr(zero)))
  }

  /** `r` is what reading reply `ex` into a record whose untouched value is
      `zero` gives: the decoded body, or `zero` when the body is empty, on a
      reply the classification accepts; the classification's error otherwise. */
  ghost predicate Reads<T>(r: Outcome<T>, ex: Exchange<T>, zero: T) {
    && (r.Success? <==> Classify(ex, true).Success?)
    && (r.Success? ==> r.value == if ex.response.bodyEmpty then zero else ex.response.decoded.value)
    && (r.Failure? ==> r.error == Classify(ex, true).error)
  }

  /** The status an API error carries is the reply's, so `IsUnauthorized` and
      `IsNotFound` on a call's error say exactly whether the server answered
      401 or 404. */
  lemma ErrorStatusOfReply<T>(ex: Exchange<T>, wantsResult: bool)
    requires Classify(ex, wantsResult).Failure? && Classify(ex, wantsResult).error.Api?
    ensures ex.Received?
    ensures IsUnauthorized(Classify(ex, wantsResult).error.failure) <==> ex.response.status == 401
    ensures IsNotFound(Classify(ex, wantsResult).error.failure) <==> ex.response.status == 404
    ensures !(IsUnauthorized(Classify(ex, wantsResult).error.failure) && IsNotFound(Classify(ex, wantsResult).error.failure))
  {
  }

  /** A call whose reply body is ignored. */
  function Send(c: Client, verb: Method, path: string, body: Payload, ex: Exchange<()>): (r: Call<()>)
    ensures r.request == Some(BuildRequest(c, verb, path, body))
    ensures r.result.Success? <==> ex.Received? && ex.response.status < 400
    ensures r.result.Failure? ==> r.result.error == Classify(ex, false).error
  {
    var call := Request(c, verb, path, body, false, ex);
    match call.result
    case Failure(e) => Call(call.request, Failure(e))
    case Success(_) => Call(call.request, Success(()))
  }

  // ---------------------------------------------------------------------
  // Endpoint paths

  const ProjectsPath: string := "/api/projects"
  const AppsPath: string := "/api/apps"
  const StaticAppsPath: string := "/api/static-apps"
  const UploadPath: string := "/api/static-apps/upload"
  const InstallationsPath: string := "/api/installations"
  const RepositoriesLead: string := "/api/repositories/"
  const BranchesTail: string := "/branches"

  /** `<collection>/<id>`, as `fmt.Sprintf("/api/…/%s", id)` writes it. */
  function ItemPath(collection: string, id: string): (p: string)
    ensures HasPrefix(p, collection + "/") && p[|collection| + 1..] == id
  {
    PrefixOfConcat(collection + "/", id);
    collection + "/" + id
  }

  /** The reading direction: the id of a `<collection>/<id>` path. */
  function ItemId(collection: string, path: string): (r: Option<string>)
    ensures r.Some? <==> HasPrefix(path, collection + "/")
    ensures r.Some? ==> ItemPath(collection, r.value) == path
  {
    if HasPrefix(path, collection + "/") then Some(path[|collection| + 1..]) else None
  }

  lemma ItemPathRoundTrip(collection: string, id: string)
    ensures ItemId(collection, ItemPath(collection, id)) == Some(id)
  {
    PrefixOfConcat(collection + "/", id);
  }

  /** `/api/repositories/{owner}/{repo}/branches`. */
  function BranchesPath(owner: string, repo: string): (p: string)
    ensures HasPrefix(p, RepositoriesLead) && HasSuffix(p, BranchesTail)
    ensures |p| == |RepositoriesLead| + |owner| + 1 + |repo| + |BranchesTail|
    ensures p[|RepositoriesLead|..|p| - |BranchesTail|] == owner + "/" + repo
  {
    var p := RepositoriesLead + (owner + "/" + repo) + BranchesTail;
    PrefixOfConcat(RepositoriesLead, (owner + "/" + repo) + BranchesTail);
    PrefixOfConcat(RepositoriesLead + (owner + "/" + repo), BranchesTail);
    p
  }

  /** The first position of '/' in `s`, or `|s|` when there is none. */
  function SlashIndex(s: string): (i: nat)
    ensures i <= |s|
    ensures forall j :: 0 <= j < i ==> s[j] != '/'
    ensures i < |s| ==> s[i] == '/'
  {
    if |s| == 0 then 0 else if s[0] == '/' then 0 else 1 + SlashIndex(s[1..])
  }

  /** The owner and repository a branches path names. */
  function BranchesOwnerRepo(path: string): (r: Option<(string, string)>)
    ensures r.Some? ==> BranchesPath(r.value.0, r.value.1) == path
    ensures r.Some? ==> forall j :: 0 <= j < |r.value.0| ==> r.value.0[j] != '/'
  {
    if !HasPrefix(path, RepositoriesLead) || !HasSuffix(path, BranchesTail)
       || |path| < |RepositoriesLead| + |BranchesTail| then None
    else
      var middle := path[|RepositoriesLead|..|path| - |BranchesTail|];
      var i := SlashIndex(middle);
      if i == |middle| then None
      else
        var owner, repo := middle[..i], middle[i + 1..];
        assert middle == owner + "/" + repo;
        assert path == path[..|RepositoriesLead|] + middle + path[|path| - |BranchesTail|..];
        Some((owner, repo))
  }

  /** Owner and repository can be read back from the path, provided the owner
      holds no '/'; GitHub owner names never do. */
  lemma {:induction false} BranchesPathRoundTrip(owner: string, repo: string)
    requires forall j :: 0 <= j < |owner| ==> owner[j] != '/'
    ensures BranchesOwnerRepo(BranchesPath(owner, repo)) == Some((owner, repo))
  {
    var path := BranchesPath(owner, repo);
    var middle := owner + "/" + repo;
    assert path == RepositoriesLead + middle + BranchesTail;
    PrefixOfConcat(RepositoriesLead, middle + BranchesTail);
    assert path == (RepositoriesLead + middle) + BranchesTail;
    PrefixOfConcat(RepositoriesLead + middle, BranchesTail);
    assert path[|RepositoriesLead|..|path| - |BranchesTail|] == middle;
    SlashOfJoin(owner, repo);
    assert middle[..|owner|] == owner;
    assert middle[|owner| + 1..] == repo;
  }

  lemma SlashOfJoin(owner: string, repo: string)
    requires forall j :: 0 <= j < |owner| ==> owner[j] != '/'
    ensures SlashIndex(owner + "/" + repo) == |owner|
    decreases |owner|
  {
    if |owner| > 0 {
      assert (owner + "/" + repo)[1..] == owner[1..] + "/" + repo;
      SlashOfJoin(owner[1..], repo);
    }
  }

  /** Without that proviso the path is ambiguous: a '/' may belong to either part. */
  lemma BranchesPathAmbiguous()
    ensures BranchesPath("a/b", "c") == BranchesPath("a", "b/c")
  {
  }

  // ---------------------------------------------------------------------
  // The typed calls

  /** `GetInstallations`: an empty reply body is an empty list. */
  function GetInstallations(c: Client, ex: Exchange<seq<Installation>>): (r: Call<seq<Installation>>)
    ensures r.request == Some(BuildRequest(c, Get, InstallationsPath, NoBody))
    ensures Reads(r.result, ex, [])
  {
    GetInto(c, InstallationsPath, [], ex)
  }

  /** `GetBranches`: the reply's `branches` list; an empty body is an empty list. */
  function GetBranches(c: Client, owner: string, repo: string, ex: Exchange<seq<Branch>>): (r: Call<seq<Branch>>)
    ensures r.request == Some(BuildRequest(c, Get, BranchesPath(owner, repo), NoBody))
    ensures r.request.value.url == c.baseUrl + BranchesPath(owner, repo)
    ensures Reads(r.result, ex, [])
  {
    GetInto(c, BranchesPath(owner, repo), [], ex)
  }

  /** The response record before anything is decoded into it. */
  function ZeroCreated(): AppCreateResponse {
    AppCreateResponse("", "")
  }

  /** `CreateApp`: POST to `/api/apps`. */
  function CreateApp(c: Client, req: CreateAppRequest, ex: Exchange<AppCreateResponse>): (r: Call<AppCreateResponse>)
    ensures r.request == Some(BuildRequest(c, Post, AppsPath, AppBody(req)))
    ensures Reads(r.result, ex, ZeroCreated())
  {
    var call := Request(c, Post, AppsPath, AppBody(req), true, ex);
    match call.result
    case Failure(e) => Call(call.request, Failure(e))
    case Success(v) => Call(call.request, Success(v.GetOr(ZeroCreated())))
  }

  /** `CreateProject`: POST to `/api/projects`; the reply's message is dropped. */
  function CreateProject(c: Client, req: CreateProjectRequest, ex: Exchange<()>): (r: Call<()>)
    ensures r.request == Some(BuildRequest(c, Post, ProjectsPath, ProjectBody(req)))
    ensures r.result.Success? <==> Classify(ex, true).Success?
    ensures r.result.Failure? ==> r.result.error == Classify(ex, true).error
  {
    var call := Request(c, Post, ProjectsPath, ProjectBody(req), true, ex);
    match call.result
    case Failure(e) => Call(call.request, Failure(e))
    case Success(_) => Call(call.request, Success(()))
  }

  /** `DeleteProject`: DELETE `/api/projects/{id}`, no result record. */
  function DeleteProject(c: Client, projectId: string, ex: Exchange<()>): (r: Call<()>)
    ensures r.request.Some? && r.request.value.verb == Delete
    ensures HasPrefix(r.request.value.url, c.baseUrl)
    ensures ItemId(ProjectsPath, r.request.value.url[|c.baseUrl|..]) == Some(projectId)
    ensures r.result.Success? <==> ex.Received? && ex.response.status < 400
    ensures r.result.Failure? ==> r.result.error == Classify(ex, false).error
  {
    ItemPathRoundTrip(ProjectsPath, projectId);
    PrefixOfConcat(c.baseUrl, ItemPath(ProjectsPath, projectId));
    Send(c, Delete, ItemPath(ProjectsPath, projectId), NoBody, ex)
  }

  /** `DeleteApp`: DELETE `/api/apps/{id}`, no result record. */
  function DeleteApp(c: Client, appId: string, ex: Exchange<()>): (r: Call<()>)
    ensures r.request.Some? && r.request.value.verb == Delete
    ensures HasPrefix(r.request.value.url, c.baseUrl)
    ensures ItemId(AppsPath, r.request.value.url[|c.baseUrl|..]) == Some(appId)
    ensures r.result.Success? <==> ex.Received? && ex.response.status < 400
    ensures r.result.Failure? ==> r.result.error == Classify(ex, false).error
  {
    ItemPathRoundTrip(AppsPath, appId);
    PrefixOfConcat(c.baseUrl, ItemPath(AppsPath, appId));
    Send(c, Delete, ItemPath(AppsPath, appId), NoBody, ex)
  }

  function ZeroDetail(): AppDetailResponse {
    AppDetailResponse("", None, "", "", "", "", "", "", "")
  }

  /** `GetApp`: GET `/api/apps/{id}`. */
  function GetApp(c: Client, appId: string, ex: Exchange<AppDetailResponse>): (r: Call<AppDetailResponse>)
    ensures r.request == Some(BuildRequest(c, Get, ItemPath(AppsPath, appId), NoBody))
    ensures HasPrefix(r.request.value.url, c.baseUrl)
    ensures ItemId(AppsPath, r.request.value.url[|c.baseUrl|..]) == Some(appId)
    ensures Reads(r.result, ex, ZeroDetail())
  {
    ItemPathRoundTrip(AppsPath, appId);
    PrefixOfConcat(c.baseUrl, ItemPath(AppsPath, appId));
    GetInto(c, ItemPath(AppsPath, appId), ZeroDetail(), ex)
  }

  /** `CreateStaticApp`: POST to `/api/static-apps`. */
  function CreateStaticApp(c: Client, req: CreateStaticAppRequest, ex: Exchange<AppCreateResponse>): (r: Call<AppCreateResponse>)
    ensures r.request == Some(BuildRequest(c, Post, StaticAppsPath, StaticAppBody(req)))
    ensures Reads(r.result, ex, ZeroCreated())
  {
    var call := Request(c, Post, StaticAppsPath, StaticAppBody(req), true, ex);
    match call.result
    case Failure(e) => Call(call.request, Failure(e))
    case Success(v) => Call(call.request, Success(v.GetOr(ZeroCreated())))
  }

  // ---------------------------------------------------------------------
  // The multipart upload

  /** `path` without its trailing slashes. */
  function TrimTrailingSlashes(path: string): (t: string)
    ensures |t| <= |path| && t == path[..|t|]
    ensures t == "" || t[|t| - 1] != '/'
    ensures forall j :: |t| <= j < |path| ==> path[j] == '/'
    decreases |path|
  {
    if path != "" && path[|path| - 1] == '/' then TrimTrailingSlashes(path[..|path| - 1]) else path
  }

  /** `filepath.Base` on a slash-separated path: "." for the empty path, "/"
      for a path of slashes only, and otherwise the last element once the
      trailing slashes are dropped: a non-empty suffix without '/' that is
      either the whole trimmed path or preceded by '/'. */
  function BaseName(path: string): (b: string)
    ensures b != ""
    ensures path == "" ==> b == "."
    ensures path != "" && TrimTrailingSlashes(path) == "" ==> b == "/"
    ensures TrimTrailingSlashes(path) != "" ==>
      var t := TrimTrailingSlashes(path);
      && HasSuffix(t, b)
      && (forall j :: 0 <= j < |b| ==> b[j] != '/')
      && (|b| == |t| || t[|t| - |b| - 1] == '/')
  {
    if path == "" then "."
    else
      var t := TrimTrailingSlashes(path);
      if t == "" then "/" else LastElement(t)
  }

  /** The part of `s` after its last '/' (all of `s` when it has none). */
  function LastElement(s: string): (e: string)
    requires s != "" && s[|s| - 1] != '/'
    ensures e != "" && HasSuffix(s, e)
    ensures forall j :: 0 <= j < |e| ==> e[j] != '/'
    ensures |e| == |s| || s[|s| - |e| - 1] == '/'
    decreases |s|
  {
    if |s| == 1 then s
    else if s[|s| - 2] == '/' then [s[|s| - 1]]
    else
      var e := LastElement(s[..|s| - 1]);
      assert HasSuffix(s, e + [s[|s| - 1]]) by {
        assert s == s[..|s| - 1] + [s[|s| - 1]];
      }
      e + [s[|s| - 1]]
  }

  /** A file named `name` inside any directory has base name `name`, and so
      has the bare name: the upload's file part is named after the file
      itself. */
  lemma BaseNameOfJoin(dir: string, name: string)
    requires name != "" && forall j :: 0 <= j < |name| ==> name[j] != '/'
    ensures BaseName(dir + "/" + name) == name
    ensures BaseName(name) == name
  {
    var s := dir + "/" + name;
    assert s[|s| - 1] == name[|name| - 1];
    assert TrimTrailingSlashes(s) == s;
    assert s[|s| - |name| - 1] == '/';
    assert TrimTrailingSlashes(name) == name;
  }

  /** The error `json.Unmarshal` gives for an empty input. */
  const EmptyJsonText: string := "unexpected end of JSON input"

  /** What became of reading the ZIP file: `os.Open` failed, or it opened
      and copying its content into the form failed, or it was read whole. */
  datatype LocalFile = Readable | OpenFailed(reason: string) | CopyFailed(reason: string)

  /** `CreateStaticAppUpload`. `file` says how reading the ZIP file went. The
      four form fields and the file part are sent to the upload endpoint
      with the bearer rule and no JSON headers; the reply is classified as
      in `Request`, except that its body is always decoded. */
  function CreateStaticAppUpload(c: Client, req: CreateStaticAppUploadRequest, file: LocalFile, ex: Exchange<AppCreateResponse>): (r: Call<AppCreateResponse>)
    ensures file.OpenFailed? ==> r.request.None? && r.result == Failure(Wrap("failed to open file", Msg(file.reason), ""))
    ensures file.CopyFailed? ==> r.request.None? && r.result == Failure(Wrap("failed to copy file content", Msg(file.reason), ""))
    ensures file.Readable? ==>
      && r.request.Some?
      && r.request.value.url == c.baseUrl + UploadPath
      && r.request.value.verb == Post
      && ("Authorization" in r.request.value.headers <==> c.token != "")
      && (c.token != "" ==> r.request.value.headers["Authorization"] == BearerLead + c.token)
      && "Accept" !in r.request.value.headers
      && r.request.value.body.Multipart?
      && r.request.value.body.fields ==
           map["project_id" := req.projectId, "app_name" := req.appName,
               "replicas" := IntToString(req.replicas), "app_spec_type" := req.appSpecType]
      && r.request.value.body.fileField == "file"
      && r.request.value.body.fileName == BaseName(req.filePath)
    ensures file.Readable? && ex.Received? && ex.response.status >= 400 ==>
      r.result == Failure(Api(StatusError(ex.response.status, ex.response.errorMessage)))
    ensures r.result.Success? <==>
      file.Readable? && ex.Received? && ex.response.status < 400 && !ex.response.bodyEmpty && ex.response.decoded.Success?
    ensures r.result.Success? ==> r.result.value == ex.response.decoded.value
    // `json.Unmarshal` rejects an empty body
    ensures file.Readable? && ex.Received? && ex.response.status < 400 && ex.response.bodyEmpty ==>
      r.result == Failure(Wrap("failed to parse response", Msg(EmptyJsonText), ""))
  {
    match file
    case OpenFailed(reason) => Call(None, Failure(Wrap("failed to open file", Msg(reason), "")))
    case CopyFailed(reason) => Call(None, Failure(Wrap("failed to copy file content", Msg(reason), "")))
    case Readable =>
      var fields := map["project_id" := req.projectId, "app_name" := req.appName,
                        "replicas" := IntToString(req.replicas), "app_spec_type" := req.appSpecType];
      var headers := WithBearer(map["Content-Type" := "multipart/form-data"], c.token);
      var request := HttpRequest(Post, c.baseUrl + UploadPath, headers, Multipart(fields, "file", BaseName(req.filePath)));
      var result :=
        match ex
        case SendFailed(reason) => Failure(Wrap("request failed", Msg(reason), ""))
        case ReadFailed(reason) => Failure(Wrap("failed to read response", Msg(reason), ""))
        case Received(resp) =>
          if resp.status >= 400 then Failure(Api(StatusError(resp.status, resp.errorMessage)))
          else if resp.bodyEmpty then Failure(Wrap("failed to parse response", Msg(EmptyJsonText), ""))
          else match resp.decoded
            case Failure(reason) => Failure(Wrap("failed to parse response", Msg(reason), ""))
            case Success(v) => Success(v);
      Call(Some(request), result)
  }

  /** An empty reply below 400 is a blank response for `CreateStaticApp`,
      which skips decoding it, but a parse error for the upload, which
      always decodes. */
  lemma EmptyReplyDiffers(c: Client, req: CreateStaticAppRequest, upload: CreateStaticAppUploadRequest,
                          status: int, decoded: Result<AppCreateResponse, string>)
    requires status < 400
    ensures var ex := Received(Response(status, true, None, decoded));
      && CreateStaticApp(c, req, ex).result == Success(ZeroCreated())
      && CreateStaticAppUpload(c, upload, Readable, ex).result.Failure?
  {
  }
}

=== FILE: app_service.dfy ===
/** The app service (internal/service/app.go): the same authentication copy
    and `getAPIClient` as the project service, then the mapping between the
    commands' inputs and the API's records, with the defaults the service
    fills in before a create request goes out. */
module AppService {
  import opened Wrappers
  import opened Errors
  import opened Resources
  import Config
  import OAuth
  import AuthService
  import Api
  import opened Session

  /** `appService.ensureAuthenticated`. */
  function EnsureAuthenticated(disk: Config.Disk, now: int, reply: OAuth.Reply<OAuth.TokenResponse>, fault: Option<string>): (e: AuthService.Effect)
    ensures e.result.Success? ==> Config.Load(disk).Success?
    ensures |e.refreshes| <= 1
  {
    match Config.Load(disk)
    case Failure(err) => AuthService.Effect(Failure(Wrap("failed to load config", err, "")), disk, [])
    case Success(c) =>
      if c.accessToken == "" && c.refreshToken == "" then
        AuthService.Effect(Failure(Msg("not logged in. Please run 'kamui login' first")), disk, [])
      else if Config.IsLoggedIn(disk, now) then AuthService.Effect(Success(()), disk, [])
      else if c.refreshToken == "" then
        AuthService.Effect(Failure(Msg("session expired. Please run 'kamui login' again")), disk, [])
      else
        var apiUrl := Config.GetAPIURL(disk).value;
        var flow := OAuth.SetClientCredentials(OAuth.NewFlow(apiUrl), c.clientId, c.clientSecret);
        var call := OAuth.RefreshTokens(flow, c.refreshToken, reply);
        match call.result
        case Failure(err) =>
          AuthService.Effect(Failure(Wrap("failed to refresh token", err, ". Please run 'kamui login' again")), disk, [call.request])
        case Success(t) =>
          match Config.SaveTokens(disk, t.accessToken, t.refreshToken, t.expiresIn, now, fault)
          case Failure(err) => AuthService.Effect(Failure(Wrap("failed to save refreshed tokens", err, "")), disk, [call.request])
          case Success(d) => AuthService.Effect(Success(()), d, [call.request])
  }

  /** This copy too decides exactly as the authentication service does. */
  lemma SameDecisionAsAuthService(disk: Config.Disk, now: int, reply: OAuth.Reply<OAuth.TokenResponse>, fault: Option<string>)
    ensures EnsureAuthenticated(disk, now, reply, fault) == AuthService.EnsureAuthenticated(disk, now, reply, fault)
  {
  }

  /** `appService.getAPIClient`. */
  function GetApiClient(env: Env): (s: Connected)
    ensures var e := EnsureAuthenticated(env.disk, env.now, env.refreshReply, env.writeFault);
      && s.disk == e.disk && s.refreshes == e.refreshes
      && (e.result.Failure? ==> s.client == Failure(e.result.error))
      && (e.result.Success? && Config.GetAccessToken(e.disk, env.now).Failure? ==>
            s.client == Failure(Wrap("failed to get access token", Config.GetAccessToken(e.disk, env.now).error, "")))
    ensures s.client.Success? ==>
      && Config.Load(s.disk).Success?
      && s.client.value.token == Config.Load(s.disk).value.accessToken
      && s.client.value.token != ""
      && s.client.value.baseUrl == Config.Load(s.disk).value.apiUrl
  {
    var e := EnsureAuthenticated(env.disk, env.now, env.refreshReply, env.writeFault);
    if e.result.Failure? then Connected(Failure(e.result.error), e.disk, e.refreshes)
    else match Config.GetAccessToken(e.disk, env.now)
      case Failure(err) => Connected(Failure(Wrap("failed to get access token", err, "")), e.disk, e.refreshes)
      case Success(token) =>
        match Config.GetAPIURL(e.disk)
        case Failure(err) => Connected(Failure(Wrap("failed to get API URL", err, "")), e.disk, e.refreshes)
        case Success(apiUrl) => Connected(Success(Api.Client(apiUrl, token)), e.disk, e.refreshes)
  }

  /** `GetInstallations`: the records are passed through field by field. */
  function GetInstallations(env: Env, ex: Api.Exchange<seq<Installation>>): (s: Served<seq<Installation>>)
    ensures GetApiClient(env).client.Failure? ==> s.requests == []
    ensures GetApiClient(env).client.Success? ==>
      s.requests == [Api.BuildRequest(GetApiClient(env).client.value, Api.Get, Api.InstallationsPath, Api.NoBody)]
    ensures GetApiClient(env).client.Failure? ==> s.result == Failure(GetApiClient(env).client.error)
    ensures GetApiClient(env).client.Success? ==>
      Delivers(s.result, ex, [], (xs: seq<Installation>) => xs, "failed to fetch installations")
  {
    Through(GetApiClient(env), c => Api.GetInstallations(c, ex), "failed to fetch installations")
  }

  /** `GetBranches`: GET the branches of `owner/repo`. */
  function GetBranches(env: Env, owner: string, repo: string, ex: Api.Exchange<seq<Branch>>): (s: Served<seq<Branch>>)
    ensures GetApiClient(env).client.Failure? ==> s.requests == []
    ensures GetApiClient(env).client.Success? ==>
      |s.requests| == 1 && s.requests[0].url == GetApiClient(env).client.value.baseUrl + Api.BranchesPath(owner, repo)
    ensures GetApiClient(env).client.Failure? ==> s.result == Failure(GetApiClient(env).client.error)
    ensures GetApiClient(env).client.Success? ==>
      Delivers(s.result, ex, [], (bs: seq<Branch>) => bs, "failed to fetch branches")
  {
    Through(GetApiClient(env), c => Api.GetBranches(c, owner, repo, ex), "failed to fetch branches")
  }

  // ---------------------------------------------------------------------
  // Creating a dynamic app

  /** The service's "set defaults" step: zero replicas become one, a nil
      environment an empty one, an empty health check `/health`. */
  function FillAppDefaults(req: Api.CreateAppRequest): (r: Api.CreateAppRequest)
    ensures r.replicas == (if req.replicas == 0 then 1 else req.replicas)
    ensures r.envVars.Some? && (req.envVars.Some? ==> r.envVars == req.envVars) && (req.envVars.None? ==> r.envVars == Some(map[]))
    ensures r.healthCheckEndpoint != ""
    ensures req.healthCheckEndpoint != "" ==> r.healthCheckEndpoint == req.healthCheckEndpoint
    ensures r.(replicas := req.replicas, envVars := req.envVars, healthCheckEndpoint := req.healthCheckEndpoint) == req
  {
    var r := if req.replicas == 0 then req.(replicas := 1) else req;
    var r := if r.envVars.None? then r.(envVars := Some(map[])) else r;
    if r.healthCheckEndpoint == "" then r.(healthCheckEndpoint := "/health") else r
  }

  /** Filling the defaults twice is filling them once. */
  lemma FillAppDefaultsIdempotent(req: Api.CreateAppRequest)
    ensures FillAppDefaults(FillAppDefaults(req)) == FillAppDefaults(req)
  {
  }

  /** The request `CreateApp` sends for `input`: every input field is copied
      to its request field, the app type is always "dynamic", the pod counts
      start at zero, and then the defaults are filled. */
  function AppRequestFor(input: CreateAppInput): (req: Api.CreateAppRequest)
    ensures req.projectId == input.projectId && req.appName == input.appName
    ensures req.appDisplayName == input.displayName && req.languageType == input.language
    ensures req.organizationName == input.owner && req.ownerType == input.ownerType
    ensures req.repositoryName == input.repository && req.repositoryBranch == input.branch
    ensures req.directory == input.directory && req.deployType == input.deployType
    ensures req.startCommand == input.startCommand && req.setupCommand == input.setupCommand
    ensures req.preCommand == input.preCommand && req.databaseId == input.databaseId
    ensures req.appType == "dynamic" && req.appSpecType == ""
    ensures req.status == Some(ProjectStatus(0, 0, 0, 0))
    ensures req.replicas == (if input.replicas == 0 then 1 else input.replicas)
    ensures req.envVars == Some(input.envVars.GetOr(map[]))
    ensures req.healthCheckEndpoint == (if input.healthCheckPath == "" then "/health" else input.healthCheckPath)
  {
    FillAppDefaults(Api.CreateAppRequest(
      input.projectId, input.appName, input.displayName, input.replicas, input.envVars,
      input.preCommand, input.startCommand, input.setupCommand, input.healthCheckPath,
      input.deployType, "dynamic", input.language, input.owner, input.ownerType,
      input.repository, input.branch, input.directory, input.databaseId, "",
      Some(ProjectStatus(0, 0, 0, 0))))
  }

  /** Two inputs yield the same request exactly when they differ at most in
      what the defaults erase: replicas 0 against 1, a nil environment against
      an empty one, an empty health check against `/health`. */
  lemma {:induction false} AppRequestForSameExactly(a: CreateAppInput, b: CreateAppInput)
    ensures AppRequestFor(a) == AppRequestFor(b) <==>
      && a.(replicas := 0, envVars := None, healthCheckPath := "") == b.(replicas := 0, envVars := None, healthCheckPath := "")
      && (if a.replicas == 0 then 1 else a.replicas) == (if b.replicas == 0 then 1 else b.replicas)
      && a.envVars.GetOr(map[]) == b.envVars.GetOr(map[])
      && (if a.healthCheckPath == "" then "/health" else a.healthCheckPath) == (if b.healthCheckPath == "" then "/health" else b.healthCheckPath)
  {
    var ra, rb := AppRequestFor(a), AppRequestFor(b);
    if ra == rb {
      assert a.(replicas := 0, envVars := None, healthCheckPath := "") == b.(replicas := 0, envVars := None, healthCheckPath := "");
    }
  }

  /** `CreateApp`: the output names the app the caller asked for and carries
      the id the API assigned. */
  function CreateApp(env: Env, input: CreateAppInput, ex: Api.Exchange<Api.AppCreateResponse>): (s: Served<CreateAppOutput>)
    ensures GetApiClient(env).client.Failure? ==> s.requests == []
    ensures GetApiClient(env).client.Success? ==>
      s.requests == [Api.BuildRequest(GetApiClient(env).client.value, Api.Post, Api.AppsPath, Api.AppBody(AppRequestFor(input)))]
    ensures s.result.Success? ==> Api.Classify(ex, true).Success?
    ensures s.result.Success? ==> s.result.value.name == input.appName
    ensures s.result.Success? && !ex.response.bodyEmpty ==> s.result.value.id == ex.response.decoded.value.appId
    ensures GetApiClient(env).client.Success? ==>
      Delivers(s.result, ex, Api.ZeroCreated(), (resp: Api.AppCreateResponse) => CreateAppOutput(resp.appId, input.appName), "failed to create app")
  {
    var sent := Through(GetApiClient(env), c => Api.CreateApp(c, AppRequestFor(input), ex), "failed to create app");
    MapServed(sent, (resp: Api.AppCreateResponse) => CreateAppOutput(resp.appId, input.appName))
  }

  /** `ListApps`: the apps of the project fetched from `/api/projects/{id}`. */
  function ListApps(env: Env, projectId: string, ex: Api.Exchange<Project>): (s: Served<seq<App>>)
    ensures GetApiClient(env).client.Failure? ==> s.requests == []
    ensures GetApiClient(env).client.Success? ==>
      s.requests == [Api.BuildRequest(GetApiClient(env).client.value, Api.Get, Api.ItemPath(Api.ProjectsPath, projectId), Api.NoBody)]
    ensures s.result.Success? ==> Api.Classify(ex, true).Success?
    ensures s.result.Success? && !ex.response.bodyEmpty ==> s.result.value == ex.response.decoded.value.apps
    ensures GetApiClient(env).client.Success? ==>
      Delivers(s.result, ex, Project("", "", "", "", "", []), (p: Project) => p.apps, "failed to fetch project")
  {
    var sent := Through(GetApiClient(env), c => Api.GetInto(c, Api.ItemPath(Api.ProjectsPath, projectId), Project("", "", "", "", "", []), ex), "failed to fetch project");
    MapServed(sent, (p: Project) => p.apps)
  }

  /** The detail `GetApp` returns: the id asked for, the reply's fields, and
      the reply's pod counts as the status. */
  function DetailOf(appId: string, resp: Api.AppDetailResponse): (d: AppDetail)
    ensures d.id == appId && d.status == resp.podStatus
    ensures d.displayName == resp.displayName && d.appType == resp.appType
    ensures d.languageType == resp.languageType && d.url == resp.url
    ensures d.customDomain == resp.customDomain && d.githubOrgRepo == resp.githubOrgRepo
    ensures d.githubBranch == resp.githubBranch
  {
    AppDetail(appId, resp.displayName, resp.appType, resp.languageType, resp.url,
              resp.customDomain, resp.githubOrgRepo, resp.githubBranch, resp.podStatus)
  }

  /** `GetApp`. */
  function GetApp(env: Env, appId: string, ex: Api.Exchange<Api.AppDetailResponse>): (s: Served<AppDetail>)
    ensures GetApiClient(env).client.Failure? ==> s.requests == []
    ensures GetApiClient(env).client.Success? ==>
      |s.requests| == 1 && s.requests[0].url == GetApiClient(env).client.value.baseUrl + Api.ItemPath(Api.AppsPath, appId)
    ensures s.result.Success? ==> s.result.value.id == appId && Api.Classify(ex, true).Success?
    ensures s.result.Success? && !ex.response.bodyEmpty ==> s.result.value.status == ex.response.decoded.value.podStatus
    ensures GetApiClient(env).client.Success? ==>
      Delivers(s.result, ex, Api.ZeroDetail(), (resp: Api.AppDetailResponse) => DetailOf(appId, resp), "failed to fetch app")
  {
    var sent := Through(GetApiClient(env), c => Api.GetApp(c, appId, ex), "failed to fetch app");
    MapServed(sent, (resp: Api.AppDetailResponse) => DetailOf(appId, resp))
  }

  /** `DeleteApp`. */
  function DeleteApp(env: Env, appId: string, ex: Api.Exchange<()>): (s: Served<()>)
    ensures GetApiClient(env).client.Failure? ==> s.requests == []
    ensures GetApiClient(env).client.Success? ==>
      |s.requests| == 1 && s.requests[0].verb == Api.Delete
      && s.requests[0].url == GetApiClient(env).client.value.baseUrl + Api.ItemPath(Api.AppsPath, appId)
    ensures s.result.Success? <==> GetApiClient(env).client.Success? && ex.Received? && ex.response.status < 400
    ensures GetApiClient(env).client.Failure? ==> s.result == Failure(GetApiClient(env).client.error)
    ensures GetApiClient(env).client.Success? && s.result.Failure? ==>
      s.result == Failure(Wrap("failed to delete app", Api.Classify(ex, false).error, ""))
  {
    Through(GetApiClient(env), c => Api.DeleteApp(c, appId, ex), "failed to delete app")
  }

  // ---------------------------------------------------------------------
  // Creating a static app

  /** The request `CreateStaticApp` sends: the input's fields, with zero
      replicas made one, an empty spec "nano" and an empty deploy type
      "github"; any other value passes unchanged. */
  function StaticAppRequestFor(input: CreateStaticAppInput): (req: Api.CreateStaticAppRequest)
    ensures req.replicas == (if input.replicas == 0 then 1 else input.replicas)
    ensures req.appSpecType == (if input.appSpecType == "" then "nano" else input.appSpecType)
    ensures req.deployType == (if input.deployType == "" then "github" else input.deployType)
    ensures req.appName == input.appName && req.projectId == input.projectId
    ensures req.organizationName == input.organizationName && req.ownerType == input.ownerType
    ensures req.repositoryName == input.repositoryName && req.repositoryBranch == input.repositoryBranch
    ensures req.directory == input.directory
  {
    var req := Api.CreateStaticAppRequest(
      input.appName, input.projectId, input.replicas, input.appSpecType, input.deployType,
      input.organizationName, input.ownerType, input.repositoryName, input.repositoryBranch, input.directory);
    var req := if req.replicas == 0 then req.(replicas := 1) else req;
    var req := if req.appSpecType == "" then req.(appSpecType := "nano") else req;
    if req.deployType == "" then req.(deployType := "github") else req
  }

  /** An input already carrying non-default values is sent as it is. */
  lemma StaticDefaultsFixExplicitValues(input: CreateStaticAppInput)
    requires input.replicas != 0 && input.appSpecType != "" && input.deployType != ""
    ensures var req := StaticAppRequestFor(input);
      req == Api.CreateStaticAppRequest(
        input.appName, input.projectId, input.replicas, input.appSpecType, input.deployType,
        input.organizationName, input.ownerType, input.repositoryName, input.repositoryBranch, input.directory)
  {
  }

  /** `CreateStaticApp`. */
  function CreateStaticApp(env: Env, input: CreateStaticAppInput, ex: Api.Exchange<Api.AppCreateResponse>): (s: Served<CreateAppOutput>)
    ensures GetApiClient(env).client.Failure? ==> s.requests == []
    ensures GetApiClient(env).client.Success? ==>
      s.requests == [Api.BuildRequest(GetApiClient(env).client.value, Api.Post, Api.StaticAppsPath, Api.StaticAppBody(StaticAppRequestFor(input)))]
    ensures s.result.Success? ==> Api.Classify(ex, true).Success?
    ensures s.result.Success? ==> s.result.value.name == input.appName
    ensures s.result.Success? && !ex.response.bodyEmpty ==> s.result.value.id == ex.response.decoded.value.appId
    ensures GetApiClient(env).client.Success? ==>
      Delivers(s.result, ex, Api.ZeroCreated(), (resp: Api.AppCreateResponse) => CreateAppOutput(resp.appId, input.appName), "failed to create static app")
  {
    var sent := Through(GetApiClient(env), c => Api.CreateStaticApp(c, StaticAppRequestFor(input), ex), "failed to create static app");
    MapServed(sent, (resp: Api.AppCreateResponse) => CreateAppOutput(resp.appId, input.appName))
  }

  /** The request `CreateStaticAppUpload` hands to the client: zero replicas
      made one, an empty spec "nano". */
  function UploadRequestFor(input: CreateStaticAppUploadInput): (req: Api.CreateStaticAppUploadRequest)
    ensures req.replicas == (if input.replicas == 0 then 1 else input.replicas)
    ensures req.appSpecType == (if input.appSpecType == "" then "nano" else input.appSpecType)
    ensures req.projectId == input.projectId && req.appName == input.appName && req.filePath == input.filePath
  {
    var req := Api.CreateStaticAppUploadRequest(input.projectId, input.appName, input.replicas, input.appSpecType, input.filePath);
    var req := if req.replicas == 0 then req.(replicas := 1) else req;
    if req.appSpecType == "" then req.(appSpecType := "nano") else req
  }

  /** `CreateStaticAppUpload`: the form carries the input's project and name
      with the defaults applied, so it never says zero replicas or an empty
      spec; the id comes from the reply, which is always decoded, so an empty
      reply is an error. */
  function CreateStaticAppUpload(env: Env, input: CreateStaticAppUploadInput, file: Api.LocalFile, ex: Api.Exchange<Api.AppCreateResponse>): (s: Served<CreateAppOutput>)
    ensures GetApiClient(env).client.Failure? || !file.Readable? ==> s.requests == []
    ensures |s.requests| == 1 ==>
      && s.requests[0].body.Multipart?
      && "replicas" in s.requests[0].body.fields && "app_spec_type" in s.requests[0].body.fields
      && s.requests[0].body.fields["replicas"] != "0"
      && s.requests[0].body.fields["app_spec_type"] != ""
    ensures |s.requests| == 1 ==>
      var req := UploadRequestFor(input);
      s.requests[0].body.fields ==
        map["project_id" := input.projectId, "app_name" := input.appName,
            "replicas" := Text.IntToString(req.replicas), "app_spec_type" := req.appSpecType]
    ensures GetApiClient(env).client.Success? && file.Readable? ==> |s.requests| == 1
    ensures GetApiClient(env).client.Failure? ==> s.result == Failure(GetApiClient(env).client.error)
    ensures s.result.Success? <==>
      GetApiClient(env).client.Success? && file.Readable? && ex.Received? && ex.response.status < 400
      && !ex.response.bodyEmpty && ex.response.decoded.Success?
    ensures s.result.Success? ==> s.result.value.name == input.appName && s.result.value.id == ex.response.decoded.value.appId
    ensures GetApiClient(env).client.Success? && s.result.Failure? ==>
      var made := Api.CreateStaticAppUpload(GetApiClient(env).client.value, UploadRequestFor(input), file, ex);
      s.result == Failure(Wrap("failed to create static app", made.result.error, ""))
  {
    var req := UploadRequestFor(input);
    var sent := Through(GetApiClient(env), c => Api.CreateStaticAppUpload(c, req, file, ex), "failed to create static app");
    assert Text.IntToString(req.replicas) != "0" by {
      assert Text.IntToString(0) == "0";
      if Text.IntToString(req.replicas) == Text.IntToString(0) {
        Text.IntToStringInjective(req.replicas, 0);
      }
    }
    MapServed(sent, (resp: Api.AppCreateResponse) => CreateAppOutput(resp.appId, input.appName))
  }
}

=== FILE: apps_cases.dfy ===
/** The table cases of internal/cmd/apps_test.go, stated against the model:
    the mocked services answer every detail request with the same record. */
module AppsCases {
  import opened Wrappers
  import opened Errors
  import opened Resources
  import opened Commands
  import opened AppsCmd

  function SameDetail(d: AppDetail): Details {
    (_: string) => Success(d)
  }

  function Bare(id: string, name: string): App {
    App(id, name, "", None, "", "")
  }

  function Detail(displayName: string, url: string, status: Option<ProjectStatus>): AppDetail {
    AppDetail("", displayName, "dynamic", "", url, "", "", "", status)
  }

  /** Listing by project name shows the detail's display name and its running
      status for every app. */
  lemma ListByProjectName()
    ensures
      var ps := [Project("proj-123", "my-project", "", "", "", [Bare("app-1", "web-app"), Bare("app-2", "api-app")])];
      var d := Detail("Web App", "https://web.example.com", Some(ProjectStatus(1, 0, 0, 0)));
      RunList(Success(ps), "my-project", SameDetail(d))
        == Success(Listing("my-project", "proj-123",
             [Row("Web App", "app-1", "running", "https://web.example.com"),
              Row("Web App", "app-2", "running", "https://web.example.com")]))
  {
    var ps := [Project("proj-123", "my-project", "", "", "", [Bare("app-1", "web-app"), Bare("app-2", "api-app")])];
    var d := Detail("Web App", "https://web.example.com", Some(ProjectStatus(1, 0, 0, 0)));
    FindProjectIsFirst(ps, "my-project", 0);
    var r := RunList(Success(ps), "my-project", SameDetail(d));
    assert r.value.rows[0] == Row("Web App", "app-1", "running", "https://web.example.com");
    assert r.value.rows[1] == Row("Web App", "app-2", "running", "https://web.example.com");
    assert |r.value.rows| == 2;
    assert r.value.rows == [Row("Web App", "app-1", "running", "https://web.example.com"),
                            Row("Web App", "app-2", "running", "https://web.example.com")];
  }

  /** Listing by project id; a detail without status keeps "unknown". */
  lemma ListByProjectId()
    ensures
      var ps := [Project("proj-456", "another-project", "", "", "", [Bare("app-3", "service")])];
      RunList(Success(ps), "proj-456", SameDetail(Detail("Service", "", None)))
        == Success(Listing("another-project", "proj-456", [Row("Service", "app-3", "unknown", "")]))
  {
    var ps := [Project("proj-456", "another-project", "", "", "", [Bare("app-3", "service")])];
    FindProjectIsFirst(ps, "proj-456", 0);
    var r := RunList(Success(ps), "proj-456", SameDetail(Detail("Service", "", None)));
    assert r.value.rows[0] == Row("Service", "app-3", "unknown", "");
    assert |r.value.rows| == 1;
    assert r.value.rows == [Row("Service", "app-3", "unknown", "")];
  }

  /** A project without apps lists no rows ("No apps found"). */
  lemma ListEmptyProject(details: Details)
    ensures
      var ps := [Project("proj-empty", "empty-project", "", "", "", [])];
      RunList(Success(ps), "empty-project", details) == Success(Listing("empty-project", "proj-empty", []))
  {
  }

  /** An unknown project is "project not found". */
  lemma ListUnknownProject(details: Details)
    ensures RunList(Success([]), "nonexistent", details) == Failure(Msg(ProjectNotFoundText("nonexistent")))
  {
  }

  /** Deleting by exact id with `--yes`. */
  lemma DeleteById(answer: Prompt)
    ensures
      var ps := [Project("proj-1", "project-1", "", "", "", [Bare("app-123", "my-app")])];
      var d := Detail("My App", "https://myapp.example.com", None);
      RunDelete(Success(ps), "app-123", SameDetail(d), true, answer, Success(()))
        == DeleteRun(Success(()), Some("app-123"), false, "My App")
  {
  }

  /** Deleting by a prefix of the app name with `--yes`. */
  lemma DeleteByNamePrefix(answer: Prompt)
    ensures
      var ps := [Project("proj-1", "project-1", "", "", "", [Bare("app-456", "my-app-abc123")])];
      RunDelete(Success(ps), "my-app", SameDetail(Detail("My App", "", None)), true, answer, Success(()))
        == DeleteRun(Success(()), Some("app-456"), false, "My App")
  {
  }

  /** No projects at all: "app not found". */
  lemma DeleteUnknownApp(details: Details, answer: Prompt, deletion: Outcome<()>)
    ensures RunDelete(Success([]), "nonexistent", details, true, answer, deletion)
      == DeleteRun(Failure(Msg(AppNotFoundText("nonexistent"))), None, false, "")
  {
  }

  /** Two names starting with the argument: nothing is deleted. */
  lemma DeletePrefixAmbiguity(answer: Prompt, deletion: Outcome<()>)
    ensures
      var ps := [Project("proj-1", "project-1", "", "", "", [Bare("app-1", "duplicate-abc"), Bare("app-2", "duplicate-xyz")])];
      RunDelete(Success(ps), "duplicate", SameDetail(Detail("Duplicate App", "", None)), true, answer, deletion)
        == DeleteRun(Failure(Msg(AmbiguousText)), None, false, "")
  {
    var ps := [Project("proj-1", "project-1", "", "", "", [Bare("app-1", "duplicate-abc"), Bare("app-2", "duplicate-xyz")])];
    var es := Entries(ps);
    assert es == [AppMatch("app-1", "project-1", "proj-1", "", "duplicate-abc"), AppMatch("app-2", "project-1", "proj-1", "", "duplicate-xyz")];
    assert es[0].appName[..9] == "duplicate" && es[1].appName[..9] == "duplicate";
    AmbiguousNamesDeleteNothing(ps, "duplicate", SameDetail(Detail("Duplicate App", "", None)), true, answer, deletion, 0, 1);
  }

  /** The same display name in two projects, with no name matching: nothing
      is deleted. */
  lemma DeleteDisplayNameAmbiguity(answer: Prompt, deletion: Outcome<()>)
    ensures
      var ps := [Project("proj-1", "project-1", "", "", "", [Bare("app-1", "myapp-abc123")]),
                 Project("proj-2", "project-2", "", "", "", [Bare("app-2", "myapp-xyz456")])];
      RunDelete(Success(ps), "My App", SameDetail(Detail("My App", "", None)), true, answer, deletion)
        == DeleteRun(Failure(Msg(AmbiguousText)), None, false, "")
  {
    var ps := [Project("proj-1", "project-1", "", "", "", [Bare("app-1", "myapp-abc123")]),
               Project("proj-2", "project-2", "", "", "", [Bare("app-2", "myapp-xyz456")])];
    var details := SameDetail(Detail("My App", "", None));
    var es := Entries(ps);
    assert es == [AppMatch("app-1", "project-1", "proj-1", "", "myapp-abc123"), AppMatch("app-2", "project-2", "proj-2", "", "myapp-xyz456")];
    assert es[0].appName[0] == 'm' && es[1].appName[0] == 'm' && "My App"[0] == 'M';
    assert !NameHit(es[0], "My App") && !NameHit(es[1], "My App");
    assert DisplayHit(details, es[0], "My App") && DisplayHit(details, es[1], "My App");
    assert Ambiguous(es, "My App", details);
    ResolveErrors(es, "My App", details);
  }

  /** The deletion's error comes back as it is. */
  lemma DeleteFails(answer: Prompt, err: Error)
    ensures
      var ps := [Project("proj-1", "project-1", "", "", "", [Bare("app-789", "failing-app")])];
      RunDelete(Success(ps), "app-789", SameDetail(Detail("Failing App", "", None)), true, answer, Failure(err))
        == DeleteRun(Failure(err), Some("app-789"), false, "Failing App")
  {
  }
}

=== FILE: apps_cmd.dfy ===
/** The decisions inside the `kamui apps` commands (internal/cmd/apps.go):
    project selection and input clean-up in the create wizard, the rows of
    `apps list`, and how `apps delete` resolves its argument to one app. The
    service calls the commands make arrive as their outcomes: the project list
    as an `Outcome`, the per-app detail fetch as a function of the app id. */
module AppsCmd {
  import opened Wrappers
  import opened Text
  import opened Errors
  import opened Resources
  import opened Commands

  /** The app-detail fetch (`AppService.GetApp`) as a function of the app id. */
  type Details = string -> Outcome<AppDetail>

  // ---------------------------------------------------------------------
  // apps create: project, branch and replicas

  const NoProjectsText: string := "no projects found. Create a project first with: kamui projects create"

  /** How the wizard obtains its project: named by `--project`, or chosen
      interactively among all projects. */
  datatype ProjectPick = ByFlag(project: Project) | Interactive(choices: seq<Project>)

  function PickProject(projects: Outcome<seq<Project>>, flag: string): (r: Outcome<ProjectPick>)
    ensures projects.Failure? ==> r == Failure(Wrap("failed to fetch projects", projects.error, ""))
    ensures projects.Success? && |projects.value| == 0 ==> r == Failure(Msg(NoProjectsText))
    ensures projects.Success? && |projects.value| > 0 && flag == "" ==> r == Success(Interactive(projects.value))
    ensures projects.Success? && |projects.value| > 0 && flag != "" ==>
      && (r.Success? <==> exists i :: 0 <= i < |projects.value| && Names(projects.value[i], flag))
      && (r.Success? ==> r.value.ByFlag?)
      && (r.Success? ==> exists i :: (0 <= i < |projects.value| && r.value.project == projects.value[i]
            && Names(projects.value[i], flag) && forall j :: 0 <= j < i ==> !Names(projects.value[j], flag)))
      && (r.Failure? ==> r.error == Msg(ProjectNotFoundText(flag)))
  {
    match projects
    case Failure(e) => Failure(Wrap("failed to fetch projects", e, ""))
    case Success(ps) =>
      if |ps| == 0 then Failure(Msg(NoProjectsText))
      else if flag == "" then Success(Interactive(ps))
      else match FindProject(ps, flag)
        case Failure(e) => Failure(e)
        case Success(p) => Success(ByFlag(p))
  }

  predicate IsMainline(name: string) {
    name == "main" || name == "master"
  }

  /** The index of the first branch at or after `from` named main or master. */
  function FirstMainlineFrom(branches: seq<Branch>, from: nat): (r: Option<nat>)
    requires from <= |branches|
    ensures r.Some? ==> from <= r.value < |branches| && IsMainline(branches[r.value].name)
    ensures r.Some? ==> forall j :: from <= j < r.value ==> !IsMainline(branches[j].name)
    ensures r.None? ==> forall j :: from <= j < |branches| ==> !IsMainline(branches[j].name)
    decreases |branches| - from
  {
    if from == |branches| then None
    else if IsMainline(branches[from].name) then Some(from)
    else FirstMainlineFrom(branches, from + 1)
  }

  /** The branch step of the wizard: with no branches the branch is "main"
      and nothing is asked; otherwise the user picks among the branch names,
      with the first "main" or "master" preselected (none when neither exists). */
  datatype BranchStep = DefaultMain | Choose(options: seq<string>, preset: string)

  function BranchStepFor(branches: seq<Branch>): (r: BranchStep)
    ensures r.DefaultMain? <==> |branches| == 0
    ensures r.Choose? ==> |r.options| == |branches| && forall i :: 0 <= i < |branches| ==> r.options[i] == branches[i].name
    ensures r.Choose? ==> (r.preset == "" <==> forall i :: 0 <= i < |branches| ==> !IsMainline(branches[i].name))
    ensures r.Choose? && r.preset != "" ==>
      exists i :: 0 <= i < |branches| && branches[i].name == r.preset && IsMainline(r.preset)
        && forall j :: 0 <= j < i ==> !IsMainline(branches[j].name)
  {
    if |branches| == 0 then DefaultMain
    else
      var names := seq(|branches|, i requires 0 <= i < |branches| => branches[i].name);
      match FirstMainlineFrom(branches, 0)
      case None => Choose(names, "")
      case Some(i) => Choose(names, branches[i].name)
  }

  /** The branch the wizard ends with, given the user's pick when asked. */
  function ChosenBranch(step: BranchStep, picked: string): (b: string)
    ensures step.DefaultMain? ==> b == "main"
    ensures step.Choose? ==> b == picked
  {
    match step
    case DefaultMain => "main"
    case Choose(_, _) => picked
  }

  /** The replica count typed in the wizard, raised to at least one. */
  function ClampReplicas(n: int): (r: int)
    ensures r >= 1
    ensures n >= 1 ==> r == n
    ensures n < 1 ==> r == 1
  {
    if n < 1 then 1 else n
  }

  /** `truncateString`: strings up to `maxLen` characters pass unchanged,
      longer ones keep their first `maxLen` characters followed by "...".
      Go counts bytes here; for ASCII text the two agree. A negative
      `maxLen` makes the slice panic, hence the precondition. */
  function TruncateString(s: string, maxLen: int): (r: string)
    requires maxLen >= 0
    ensures |s| <= maxLen ==> r == s
    ensures |s| > maxLen ==> |r| == maxLen + 3 && HasPrefix(r, s[..maxLen]) && HasSuffix(r, "...")
    ensures HasPrefix(s, r[..if |s| <= maxLen then |r| else maxLen])
  {
    if |s| <= maxLen then s else s[..maxLen] + "..."
  }

  // ---------------------------------------------------------------------
  // apps list

  /** The status shown for a pod count: running beats error beats stopped;
      with no count above zero (or no count at all) the label stays `prior`. */
  function StatusLabel(status: Option<ProjectStatus>, prior: string): (r: string)
    ensures status.Some? && status.value.running > 0 ==> r == "running"
    ensures status.Some? && status.value.running <= 0 && status.value.error > 0 ==> r == "error"
    ensures status.Some? && status.value.running <= 0 && status.value.error <= 0 && status.value.stopped > 0 ==> r == "stopped"
    ensures status.None? || (status.value.running <= 0 && status.value.error <= 0 && status.value.stopped <= 0) ==> r == prior
  {
    match status
    case None => prior
    case Some(s) =>
      if s.running > 0 then "running"
      else if s.error > 0 then "error"
      else if s.stopped > 0 then "stopped"
      else prior
  }

  /** One app in the listing. */
  datatype Row = Row(name: string, id: string, status: string, url: string)

  /** The detail replaces the summary only when it was fetched and carries a
      display name. */
  predicate Overrides(detail: Outcome<AppDetail>) {
    detail.Success? && detail.value.displayName != ""
  }

  function Describe(app: App, detail: Outcome<AppDetail>): (r: Row)
    ensures r.id == app.id && r.name != ""
    ensures Overrides(detail) ==> r.name == detail.value.displayName && r.url == detail.value.url
    ensures Overrides(detail) ==> r.status == StatusLabel(detail.value.status, StatusLabel(app.status, "unknown"))
    ensures !Overrides(detail) ==> r.url == "" && r.status == StatusLabel(app.status, "unknown")
    ensures !Overrides(detail) && app.name != "" ==> r.name == app.name
    ensures !Overrides(detail) && app.name == "" ==> r.name == "(unnamed)"
  {
    var summary := StatusLabel(app.status, "unknown");
    var over := Overrides(detail);
    var name := if over then detail.value.displayName else app.name;
    Row(if name == "" then "(unnamed)" else name,
        app.id,
        if over then StatusLabel(detail.value.status, summary) else summary,
        if over then detail.value.url else "")
  }

  /** What `apps list` shows: the project and one row per app, in order; no
      rows is the "No apps found" message. */
  datatype Listing = Listing(projectName: string, projectId: string, rows: seq<Row>)

  function RunList(projects: Outcome<seq<Project>>, arg: string, details: Details): (r: Outcome<Listing>)
    ensures projects.Failure? ==> r == Failure(Wrap("failed to fetch projects", projects.error, ""))
    ensures projects.Success? ==> (r.Success? <==> FindProject(projects.value, arg).Success?)
    ensures projects.Success? && r.Failure? ==> r.error == Msg(ProjectNotFoundText(arg))
    ensures r.Success? ==>
      var p := FindProject(projects.value, arg).value;
      && r.value.projectName == p.name && r.value.projectId == p.id
      && |r.value.rows| == |p.apps|
      && forall i :: 0 <= i < |p.apps| ==> r.value.rows[i] == Describe(p.apps[i], details(p.apps[i].id))
  {
    match projects
    case Failure(e) => Failure(Wrap("failed to fetch projects", e, ""))
    case Success(ps) =>
      match FindProject(ps, arg)
      case Failure(e) => Failure(e)
      case Success(p) =>
        Success(Listing(p.name, p.id, seq(|p.apps|, i requires 0 <= i < |p.apps| => Describe(p.apps[i], details(p.apps[i].id)))))
  }

  // ---------------------------------------------------------------------
  // apps delete: resolving the argument

  /** An app together with the project it lives in. */
  datatype AppMatch = AppMatch(appId: string, projectName: string, projectId: string, displayName: string, appName: string)

  function MatchOf(p: Project, a: App): AppMatch {
    AppMatch(a.id, p.name, p.id, "", a.name)
  }

  function AppsOf(p: Project): seq<AppMatch> {
    seq(|p.apps|, j requires 0 <= j < |p.apps| => MatchOf(p, p.apps[j]))
  }

  /** Every app of every project, in project order and then app order: the
      order in which the command's nested loops visit them. */
  function Entries(projects: seq<Project>): (r: seq<AppMatch>)
    ensures |projects| > 0 ==> |projects[0].apps| <= |r|
    ensures |projects| > 0 ==> r[..|projects[0].apps|] == AppsOf(projects[0])
    // the nested loops record no display name
    ensures forall k :: 0 <= k < |r| ==> r[k].displayName == ""
  {
    if |projects| == 0 then [] else AppsOf(projects[0]) + Entries(projects[1..])
  }

  /** Each entry is an app of one of the projects, and every app appears. */
  lemma {:induction false} EntriesMembership(projects: seq<Project>, m: AppMatch)
    ensures m in Entries(projects) <==>
      exists i, j :: 0 <= i < |projects| && 0 <= j < |projects[i].apps| && m == MatchOf(projects[i], projects[i].apps[j])
  {
    if |projects| > 0 {
      EntriesMembership(projects[1..], m);
      var rest := projects[1..];
      if m in Entries(projects) && m !in AppsOf(projects[0]) {
        assert m in Entries(rest);
        var i, j :| 0 <= i < |rest| && 0 <= j < |rest[i].apps| && m == MatchOf(rest[i], rest[i].apps[j]);
        assert projects[i + 1] == rest[i];
      }
      if m in AppsOf(projects[0]) {
        var j :| 0 <= j < |projects[0].apps| && AppsOf(projects[0])[j] == m;
        assert m == MatchOf(projects[0], projects[0].apps[j]);
      }
      if exists i, j :: 0 <= i < |projects| && 0 <= j < |projects[i].apps| && m == MatchOf(projects[i], projects[i].apps[j]) {
        var i, j :| 0 <= i < |projects| && 0 <= j < |projects[i].apps| && m == MatchOf(projects[i], projects[i].apps[j]);
        if i == 0 {
          assert AppsOf(projects[0])[j] == m;
        } else {
          assert rest[i - 1] == projects[i];
        }
      }
    }
  }

  predicate IdHit(m: AppMatch, arg: string) {
    m.appId == arg
  }

  /** The name test as the command writes it: equal, or starting with the
      argument. */
  predicate NameHit(m: AppMatch, arg: string) {
    m.appName == arg || HasPrefix(m.appName, arg)
  }

  /** Equality is a special case of the prefix test: a name hit is exactly a
      name that starts with the argument. */
  lemma NameHitIsPrefix(m: AppMatch, arg: string)
    ensures NameHit(m, arg) <==> HasPrefix(m.appName, arg)
  {
    if m.appName == arg {
      assert m.appName[..|arg|] == arg;
    }
  }

  /** The app's detail was fetched and its display name is the argument. */
  predicate DisplayHit(details: Details, m: AppMatch, arg: string) {
    details(m.appId).Success? && details(m.appId).value.displayName == arg
  }

  /** The elements of `s` that `keep` accepts, in order. */
  function Filter<T>(s: seq<T>, keep: T -> bool): (r: seq<T>)
    ensures |r| <= |s|
    ensures forall x :: x in r ==> x in s && keep(x)
    ensures forall k :: 0 <= k < |s| && keep(s[k]) ==> s[k] in r
  {
    if |s| == 0 then []
    else (if keep(s[0]) then [s[0]] else []) + Filter(s[1..], keep)
  }

  /** Filtering a concatenation filters each part and concatenates the
      results: what is kept from an earlier part comes before what is kept
      from a later one, so the filter keeps the input's order. */
  lemma {:induction false} FilterConcat<T>(a: seq<T>, b: seq<T>, keep: T -> bool)
    ensures Filter(a + b, keep) == Filter(a, keep) + Filter(b, keep)
  {
    if |a| == 0 {
      assert a + b == b;
    } else {
      assert (a + b)[0] == a[0];
      assert (a + b)[1..] == a[1..] + b;
      FilterConcat(a[1..], b, keep);
    }
  }

  /** The filter keeps two or more elements exactly when two positions are
      accepted: it counts positions, so the same app listed twice is two. */
  lemma {:induction false} FilterSeveral<T>(s: seq<T>, keep: T -> bool)
    ensures |Filter(s, keep)| >= 2 <==>
      exists k1, k2 :: 0 <= k1 < k2 < |s| && keep(s[k1]) && keep(s[k2])
  {
    if |s| > 0 {
      var rest := s[1..];
      FilterSeveral(rest, keep);
      if |Filter(s, keep)| >= 2 {
        if keep(s[0]) {
          assert |Filter(rest, keep)| >= 1;
          var x := Filter(rest, keep)[0];
          assert x in rest && keep(x);
          var k :| 0 <= k < |rest| && rest[k] == x;
          assert s[k + 1] == x;
        } else {
          var k1, k2 :| 0 <= k1 < k2 < |rest| && keep(rest[k1]) && keep(rest[k2]);
          assert s[k1 + 1] == rest[k1] && s[k2 + 1] == rest[k2];
        }
      }
      if exists k1, k2 :: 0 <= k1 < k2 < |s| && keep(s[k1]) && keep(s[k2]) {
        var k1, k2 :| 0 <= k1 < k2 < |s| && keep(s[k1]) && keep(s[k2]);
        assert rest[k2 - 1] == s[k2];
        if k1 == 0 {
          assert rest[k2 - 1] in Filter(rest, keep);
        } else {
          assert rest[k1 - 1] == s[k1];
        }
      }
    }
  }

  /** The apps whose `app_name` matches, in visiting order. */
  function NameMatches(es: seq<AppMatch>, arg: string): (r: seq<AppMatch>)
    ensures forall m :: m in r ==> m in es && NameHit(m, arg)
    ensures forall k :: 0 <= k < |es| && NameHit(es[k], arg) ==> es[k] in r
    ensures |r| >= 2 <==> exists k1, k2 :: 0 <= k1 < k2 < |es| && NameHit(es[k1], arg) && NameHit(es[k2], arg)
  {
    var keep := (m: AppMatch) => NameHit(m, arg);
    FilterSeveral(es, keep);
    Filter(es, keep)
  }

  /** The entries as a display-name match records them: with the argument as
      their display name. */
  function Tagged(es: seq<AppMatch>, arg: string): (r: seq<AppMatch>)
    ensures |r| == |es|
    ensures forall k :: 0 <= k < |es| ==> r[k] == es[k].(displayName := arg)
  {
    seq(|es|, k requires 0 <= k < |es| => es[k].(displayName := arg))
  }

  /** The apps whose fetched display name is the argument, in visiting order. */
  function DisplayMatches(es: seq<AppMatch>, arg: string, details: Details): (r: seq<AppMatch>)
    ensures forall m :: m in r ==> m in Tagged(es, arg) && DisplayHit(details, m, arg)
    ensures forall k :: 0 <= k < |es| && DisplayHit(details, es[k], arg) ==> Tagged(es, arg)[k] in r
    ensures |r| >= 2 <==> exists k1, k2 :: 0 <= k1 < k2 < |es| && DisplayHit(details, es[k1], arg) && DisplayHit(details, es[k2], arg)
  {
    var tagged := Tagged(es, arg);
    var keep := (m: AppMatch) => DisplayHit(details, m, arg);
    FilterSeveral(tagged, keep);
    assert forall k :: 0 <= k < |es| ==> (DisplayHit(details, tagged[k], arg) <==> DisplayHit(details, es[k], arg));
    Filter(tagged, keep)
  }

  /** The index of the first entry at or after `from` whose id is the argument. */
  function FirstIdFrom(es: seq<AppMatch>, arg: string, from: nat): (r: Option<nat>)
    requires from <= |es|
    ensures r.Some? ==> from <= r.value < |es| && IdHit(es[r.value], arg)
    ensures r.Some? ==> forall j :: from <= j < r.value ==> !IdHit(es[j], arg)
    ensures r.None? ==> forall j :: from <= j < |es| ==> !IdHit(es[j], arg)
    decreases |es| - from
  {
    if from == |es| then None
    else if IdHit(es[from], arg) then Some(from)
    else FirstIdFrom(es, arg, from + 1)
  }

  function AppNotFoundText(arg: string): string {
    "app not found: " + arg + "\n\nUse 'kamui apps list -p <project>' to see available apps"
  }

  const AmbiguousText: string := "please specify the app by ID to avoid ambiguity"

  predicate NoIdHit(es: seq<AppMatch>, arg: string) {
    forall k :: 0 <= k < |es| ==> !IdHit(es[k], arg)
  }

  predicate NoNameHit(es: seq<AppMatch>, arg: string) {
    forall k :: 0 <= k < |es| ==> !NameHit(es[k], arg)
  }

  /** The argument fits nothing: no id, no name prefix, no display name. */
  predicate Unmatched(es: seq<AppMatch>, arg: string, details: Details) {
    forall k :: 0 <= k < |es| ==> !IdHit(es[k], arg) && !NameHit(es[k], arg) && !DisplayHit(details, es[k], arg)
  }

  /** No id fits and the criterion in force (names, or display names when no
      name fits) accepts two different positions. */
  predicate Ambiguous(es: seq<AppMatch>, arg: string, details: Details) {
    && NoIdHit(es, arg)
    && ((exists k1, k2 :: 0 <= k1 < k2 < |es| && NameHit(es[k1], arg) && NameHit(es[k2], arg))
        || (NoNameHit(es, arg)
            && exists k1, k2 :: 0 <= k1 < k2 < |es| && DisplayHit(details, es[k1], arg) && DisplayHit(details, es[k2], arg)))
  }

  /** How `apps delete` turns its argument into one app: the first app whose id
      is the argument; otherwise the single app whose `app_name` starts with
      it; otherwise, when no name fits, the single app whose display name is
      it. No fit is "app not found"; two or more is an ambiguity error. */
  function Resolve(es: seq<AppMatch>, arg: string, details: Details): (r: Outcome<AppMatch>)
    ensures !NoIdHit(es, arg) ==>
      exists i :: 0 <= i < |es| && r == Success(es[i]) && IdHit(es[i], arg)
        && forall j :: 0 <= j < i ==> !IdHit(es[j], arg)
    ensures r.Failure? ==> r.error == Msg(AppNotFoundText(arg)) || r.error == Msg(AmbiguousText)
    ensures r.Success? && NoIdHit(es, arg) && !NoNameHit(es, arg) ==> r.value in es && NameHit(r.value, arg)
    ensures r.Success? && NoIdHit(es, arg) && NoNameHit(es, arg) ==>
      r.value in Tagged(es, arg) && DisplayHit(details, r.value, arg)
  {
    match FirstIdFrom(es, arg, 0)
    case Some(i) => Success(es[i])
    case None =>
      var byName := NameMatches(es, arg);
      var matches := if |byName| == 0 then DisplayMatches(es, arg, details) else byName;
      if |matches| == 0 then Failure(Msg(AppNotFoundText(arg)))
      else if |matches| > 1 then Failure(Msg(AmbiguousText))
      else Success(matches[0])
  }

  lemma MessagesDiffer(arg: string)
    ensures AppNotFoundText(arg) != AmbiguousText
  {
    assert AppNotFoundText(arg)[0] == 'a';
    assert AmbiguousText == "please " + "specify the app by ID to avoid ambiguity";
  }

  /** The two ways resolution fails, each in both directions: "app not found"
      exactly when nothing fits, the ambiguity error exactly when the
      criterion in force fits two positions. */
  lemma {:induction false} ResolveErrors(es: seq<AppMatch>, arg: string, details: Details)
    ensures Resolve(es, arg, details) == Failure(Msg(AppNotFoundText(arg))) <==> Unmatched(es, arg, details)
    ensures Resolve(es, arg, details) == Failure(Msg(AmbiguousText)) <==> Ambiguous(es, arg, details)
  {
    MessagesDiffer(arg);
    if !NoIdHit(es, arg) {
      var k :| 0 <= k < |es| && IdHit(es[k], arg);
      assert !Unmatched(es, arg, details);
    } else {
      var byName := NameMatches(es, arg);
      if |byName| > 0 {
        var m := byName[0];
        assert m in byName;
        var k :| 0 <= k < |es| && es[k] == m;
        assert NameHit(es[k], arg);
        assert !Unmatched(es, arg, details) && !NoNameHit(es, arg);
      } else {
        assert NoNameHit(es, arg);
        var shown := DisplayMatches(es, arg, details);
        if |shown| > 0 {
          var m := shown[0];
          assert m in shown;
          var k :| 0 <= k < |es| && Tagged(es, arg)[k] == m;
          assert DisplayHit(details, es[k], arg);
          assert !Unmatched(es, arg, details);
        } else {
          assert Unmatched(es, arg, details);
        }
      }
    }
  }

  /** `apps delete`: fetch every project, resolve the argument, fetch the
      target's detail (its display name, else its id, is what the prompt
      shows), then delete it with `--yes` or after a yes; a no prints
      "Cancelled." and succeeds. The deletion's own error is returned as is. */
  function RunDelete(projects: Outcome<seq<Project>>, arg: string, details: Details,
                     skipConfirm: bool, answer: Prompt, deletion: Outcome<()>): (d: DeleteRun)
    ensures projects.Failure? ==> d.deleted.None? && d.result == Failure(Wrap("failed to fetch projects", projects.error, ""))
    ensures d.deleted.Some? <==>
      && projects.Success?
      && Resolve(Entries(projects.value), arg, details).Success?
      && details(Resolve(Entries(projects.value), arg, details).value.appId).Success?
      && Confirmed(skipConfirm, answer)
    ensures d.deleted.Some? ==>
      var target := Resolve(Entries(projects.value), arg, details).value.appId;
      var detail := details(target).value;
      && d.deleted.value == target
      && d.result == deletion
      && d.shown == (if detail.displayName != "" then detail.displayName else target)
    ensures d.cancelled <==>
      && projects.Success?
      && Resolve(Entries(projects.value), arg, details).Success?
      && details(Resolve(Entries(projects.value), arg, details).value.appId).Success?
      && !skipConfirm && answer == Answered(false)
    ensures d.cancelled ==> d.result.Success? && d.deleted.None?
    ensures projects.Success? && Resolve(Entries(projects.value), arg, details).Success? ==>
      var fetched := details(Resolve(Entries(projects.value), arg, details).value.appId);
      fetched.Failure? ==> d.result == Failure(Wrap("failed to fetch app details", fetched.error, ""))
    // an interrupted or failed prompt returns its error as it is
    ensures projects.Success? && Resolve(Entries(projects.value), arg, details).Success? ==>
      var fetched := details(Resolve(Entries(projects.value), arg, details).value.appId);
      fetched.Success? && !skipConfirm && answer.PromptFailed? ==> d.result == Failure(answer.err)
    ensures projects.Success? && Resolve(Entries(projects.value), arg, details).Failure? ==>
      d.result == Failure(Resolve(Entries(projects.value), arg, details).error)
  {
    match projects
    case Failure(e) => DeleteRun(Failure(Wrap("failed to fetch projects", e, "")), None, false, "")
    case Success(ps) =>
      match Resolve(Entries(ps), arg, details)
      case Failure(e) => DeleteRun(Failure(e), None, false, "")
      case Success(m) =>
        match details(m.appId)
        case Failure(e) => DeleteRun(Failure(Wrap("failed to fetch app details", e, "")), None, false, "")
        case Success(detail) =>
          var shown := if detail.displayName != "" then detail.displayName else m.appId;
          if skipConfirm then DeleteRun(deletion, Some(m.appId), false, shown)
          else match answer
            case PromptFailed(e) => DeleteRun(Failure(e), None, false, shown)
            case Answered(false) => DeleteRun(Success(()), None, true, shown)
            case Answered(true) => DeleteRun(deletion, Some(m.appId), false, shown)
  }

  /** An app whose id is the argument is the one deleted, whatever other
      apps' names or display names are. */
  lemma IdWinsOverNames(projects: seq<Project>, arg: string, details: Details, answer: Prompt, deletion: Outcome<()>, p: nat, a: nat)
    requires p < |projects| && a < |projects[p].apps| && projects[p].apps[a].id == arg
    requires details(arg).Success?
    ensures RunDelete(Success(projects), arg, details, true, answer, deletion).deleted == Some(arg)
  {
    EntriesMembership(projects, MatchOf(projects[p], projects[p].apps[a]));
    var es := Entries(projects);
    var k :| 0 <= k < |es| && es[k] == MatchOf(projects[p], projects[p].apps[a]);
    assert IdHit(es[k], arg);
  }

  /** With no id match and two apps whose names start with the argument,
      nothing is deleted and the user is asked to give an id. */
  lemma AmbiguousNamesDeleteNothing(projects: seq<Project>, arg: string, details: Details,
                                    skipConfirm: bool, answer: Prompt, deletion: Outcome<()>, k1: nat, k2: nat)
    requires NoIdHit(Entries(projects), arg)
    requires k1 < k2 < |Entries(projects)|
    requires NameHit(Entries(projects)[k1], arg) && NameHit(Entries(projects)[k2], arg)
    ensures RunDelete(Success(projects), arg, details, skipConfirm, answer, deletion)
      == DeleteRun(Failure(Msg(AmbiguousText)), None, false, "")
  {
    assert Ambiguous(Entries(projects), arg, details);
    ResolveErrors(Entries(projects), arg, details);
  }
}

=== FILE: auth.dfy ===
/** The authentication service (internal/service/auth.go): log in through the
    OAuth flow and store what it yields, log out, and the decision procedure
    every API-bound operation runs first. Each call sees one instant `now`
    (the store's `time.Now()` reads and the refresh's expiry arithmetic
    coincide), and each write the store makes may fail with a given fault. */
module AuthService {
  import opened Wrappers
  import opened Errors
  import Config
  import OAuth

  const NotLoggedInText: string := "not logged in. Please run 'kamui login' first"
  const SessionExpiredText: string := "session expired. Please run 'kamui login' again"
  const AlreadyLoggedInText: string := "already logged in. Use 'kamui logout' first to log out"
  const ReloginHint: string := ". Please run 'kamui login' again"

  /** What a call did: its result, the credential store afterwards, and the
      refresh requests it sent to the token endpoint. */
  datatype Effect = Effect(result: Outcome<()>, disk: Config.Disk, refreshes: seq<OAuth.TokenRequest>)

  /** The service's `IsLoggedIn`: some token is stored, whether or not it is
      still good. */
  function IsLoggedIn(disk: Config.Disk): (r: bool)
    ensures r <==>
      && Config.Load(disk).Success?
      && (Config.Load(disk).value.accessToken != "" || Config.Load(disk).value.refreshToken != "")
  {
    match Config.Load(disk)
    case Failure(_) => false
    case Success(c) => c.accessToken != "" || c.refreshToken != ""
  }

  /** The store's minute-buffered check implies the service's looser one. */
  lemma StoreLoginImpliesServiceLogin(disk: Config.Disk, now: int)
    requires Config.IsLoggedIn(disk, now)
    ensures IsLoggedIn(disk)
  {
  }

  // ---------------------------------------------------------------------
  // A reference definition: the four phases a stored record can be in

  datatype Phase =
    | NoSession       // neither token stored
    | AccessValid     // an access token good for at least another minute
    | SessionExpired  // the access token is missing or stale and no refresh token is kept
    | MustRefresh     // the access token is missing or stale, a refresh token is kept

  /** The phase of record `c` at `now`, defined directly on the record and
      independently of the store's check: an access token counts as still
      valid when it has no recorded expiry or its expiry is at least one
      minute away (the store's "1 minute buffer"). */
  function PhaseOf(c: Config.Config, now: int): Phase {
    if c.accessToken == "" && c.refreshToken == "" then NoSession
    else if c.accessToken != "" && (c.expiresAt.None? || c.expiresAt.value - now >= Config.ExpiryBuffer) then AccessValid
    else if c.refreshToken == "" then SessionExpired
    else MustRefresh
  }

  /** The client a refresh uses: the stored API URL and registration, and no
      registration of its own when none is stored. */
  function RefreshFlow(c: Config.Config): (f: OAuth.Flow)
    ensures f.apiUrl == c.apiUrl && f.callbackPort == OAuth.DefaultCallbackPort
    ensures f.clientId == c.clientId && f.clientSecret == c.clientSecret
    ensures OAuth.GetClientCredentials(f).None? <==> c.clientId == ""
  {
    OAuth.SetClientCredentials(OAuth.NewFlow(c.apiUrl), c.clientId, c.clientSecret)
  }

  /** `EnsureAuthenticated`, as the code runs it, characterised phase by
      phase through `PhaseOf`: nothing is sent unless a refresh is due, a
      refresh is sent at most once with the stored refresh token and
      registration, and the store changes only when the refresh and its
      write succeed. */
  function EnsureAuthenticated(disk: Config.Disk, now: int, reply: OAuth.Reply<OAuth.TokenResponse>, fault: Option<string>): (e: Effect)
    ensures Config.Load(disk).Failure? ==>
      e == Effect(Failure(Wrap("failed to load config", Config.Load(disk).error, "")), disk, [])
    ensures Config.Load(disk).Success? ==>
      var c := Config.Load(disk).value;
      match PhaseOf(c, now)
      case NoSession => e == Effect(Failure(Msg(NotLoggedInText)), disk, [])
      case AccessValid => e == Effect(Success(()), disk, [])
      case SessionExpired => e == Effect(Failure(Msg(SessionExpiredText)), disk, [])
      case MustRefresh =>
        var tokens := OAuth.ReadTokenReply("token refresh", reply);
        && e.refreshes == [OAuth.RefreshRequest(RefreshFlow(c), c.refreshToken)]
        && (e.result.Success? <==> tokens.Success? && fault.None?)
        && (tokens.Failure? ==> e.result == Failure(Wrap("failed to refresh token", tokens.error, ReloginHint)))
        && (e.result.Success? ==>
              e.disk == Config.SaveTokens(disk, tokens.value.accessToken, tokens.value.refreshToken,
                                          tokens.value.expiresIn, now, fault).value)
        && (e.result.Failure? ==> e.disk == disk)
  {
    match Config.Load(disk)
    case Failure(err) => Effect(Failure(Wrap("failed to load config", err, "")), disk, [])
    case Success(c) =>
      if c.accessToken == "" && c.refreshToken == "" then Effect(Failure(Msg(NotLoggedInText)), disk, [])
      else if Config.IsLoggedIn(disk, now) then Effect(Success(()), disk, [])
      else if c.refreshToken == "" then Effect(Failure(Msg(SessionExpiredText)), disk, [])
      else
        var apiUrl := Config.GetAPIURL(disk).value;
        var flow := OAuth.SetClientCredentials(OAuth.NewFlow(apiUrl), c.clientId, c.clientSecret);
        var call := OAuth.RefreshTokens(flow, c.refreshToken, reply);
        match call.result
        case Failure(err) => Effect(Failure(Wrap("failed to refresh token", err, ReloginHint)), disk, [call.request])
        case Success(t) =>
          match Config.SaveTokens(disk, t.accessToken, t.refreshToken, t.expiresIn, now, fault)
          case Failure(err) => Effect(Failure(Wrap("failed to save refreshed tokens", err, "")), disk, [call.request])
          case Success(d) => Effect(Success(()), d, [call.request])
  }

  /** The store's buffered check and the reference phase `AccessValid` pick
      out the same records. */
  lemma {:induction false} StoreCheckIsAccessValid(disk: Config.Disk, now: int)
    requires Config.Load(disk).Success?
    ensures Config.IsLoggedIn(disk, now) <==> PhaseOf(Config.Load(disk).value, now) == AccessValid
  {
    var c := Config.Load(disk).value;
    if c.accessToken != "" && c.expiresAt.Some? {
      if c.expiresAt.value - now >= Config.ExpiryBuffer {
        assert !Config.ExpiredAt(c.expiresAt, now + Config.ExpiryBuffer);
      } else {
        assert Config.ExpiredAt(c.expiresAt, now + Config.ExpiryBuffer);
      }
    }
  }

  /** A successful check without a refresh leaves a token the store hands out
      for the whole coming minute. */
  lemma ValidSessionYieldsToken(disk: Config.Disk, now: int, later: int, reply: OAuth.Reply<OAuth.TokenResponse>, fault: Option<string>)
    requires EnsureAuthenticated(disk, now, reply, fault).result.Success?
    requires EnsureAuthenticated(disk, now, reply, fault).refreshes == []
    requires now <= later <= now + Config.ExpiryBuffer
    ensures Config.GetAccessToken(disk, later) == Success(Config.Load(disk).value.accessToken)
  {
    StoreCheckIsAccessValid(disk, now);
    Config.LoggedInYieldsToken(disk, now, later);
  }

  /** After a successful check the store hands out a token at the same
      instant, unless a refresh ran and either returned an empty access token
      or returned no positive lifetime while the old expiry had passed:
      `SaveTokens` then keeps the stale expiry. */
  lemma {:induction false} TokenAfterCheck(disk: Config.Disk, now: int, reply: OAuth.Reply<OAuth.TokenResponse>, fault: Option<string>)
    requires EnsureAuthenticated(disk, now, reply, fault).result.Success?
    ensures var e := EnsureAuthenticated(disk, now, reply, fault);
      Config.GetAccessToken(e.disk, now).Failure? ==>
        && |e.refreshes| == 1
        && var t := OAuth.ReadTokenReply("token refresh", reply).value;
           t.accessToken == "" || (t.expiresIn <= 0 && Config.ExpiredAt(Config.Load(disk).value.expiresAt, now))
  {
    var e := EnsureAuthenticated(disk, now, reply, fault);
    var c := Config.Load(disk).value;
    StoreCheckIsAccessValid(disk, now);
    if PhaseOf(c, now) == AccessValid {
      Config.LoggedInYieldsToken(disk, now, now);
    }
  }

  /** The stale-expiry case happens: a refresh that reports `expires_in` 0
      succeeds, and the record it leaves is still expired. */
  lemma StaleExpiryAfterRefresh(now: int)
    ensures
      var c := Config.Config("old", "r", Some(now - 1), Config.DefaultAPIURL, "id", "");
      var reply: OAuth.Reply<OAuth.TokenResponse> := OAuth.Replied(200, Success(OAuth.TokenResponse("new", "Bearer", 0, "r2", "full")));
      var e := EnsureAuthenticated(Config.Stored(c), now, reply, None);
      && e.result.Success?
      && |e.refreshes| == 1
      && Config.GetAccessToken(e.disk, now) == Failure(Msg("token expired"))
  {
    var c := Config.Config("old", "r", Some(now - 1), Config.DefaultAPIURL, "id", "");
    assert !Config.IsLoggedIn(Config.Stored(c), now);
  }

  /** The service's `GetAccessToken`: the check, then the store's token. */
  function GetAccessToken(disk: Config.Disk, now: int, reply: OAuth.Reply<OAuth.TokenResponse>, fault: Option<string>): (r: (Outcome<string>, Config.Disk))
    ensures var e := EnsureAuthenticated(disk, now, reply, fault);
      && r.1 == e.disk
      && (e.result.Failure? ==> r.0 == Failure(e.result.error))
      && (e.result.Success? ==> r.0 == Config.GetAccessToken(e.disk, now))
    ensures r.0.Success? ==> Config.Load(r.1).Success? && r.0.value == Config.Load(r.1).value.accessToken
  {
    var e := EnsureAuthenticated(disk, now, reply, fault);
    match e.result
    case Failure(err) => (Failure(err), e.disk)
    case Success(_) => (Config.GetAccessToken(e.disk, now), e.disk)
  }

  // ---------------------------------------------------------------------
  // Login and logout

  /** What a login did: its result, the store afterwards, and the OAuth run's steps. */
  datatype LoginEffect = LoginEffect(result: Outcome<()>, disk: Config.Disk, steps: seq<OAuth.Step>)

  /** The flow a login starts from: the stored API URL, and the stored
      registration when there is one. */
  function LoginFlow(c: Config.Config): (f: OAuth.Flow)
    ensures f.apiUrl == c.apiUrl && f.callbackPort == OAuth.DefaultCallbackPort
    ensures c.clientId != "" ==> f.clientId == c.clientId && f.clientSecret == c.clientSecret
    ensures c.clientId == "" ==> f.clientId == "" && f.clientSecret == ""
  {
    var flow := OAuth.NewFlow(c.apiUrl);
    if c.clientId != "" then OAuth.SetClientCredentials(flow, c.clientId, c.clientSecret) else flow
  }

  /** What a successful login leaves in the store, against the record
      before: the run's tokens; the expiry by the `SaveTokens` rule (the
      run's lifetime from `now` when positive, else the old expiry); the
      flow's registration when it holds one, else the old secret; the API
      URL untouched. */
  predicate SavesLogin(before: Config.Config, after: Config.Config, flow: OAuth.Flow, tokens: OAuth.OAuthResult, now: int) {
    && after.accessToken == tokens.accessToken
    && after.refreshToken == tokens.refreshToken
    && after.clientId == flow.clientId
    && after.clientSecret == (if flow.clientId != "" then flow.clientSecret else before.clientSecret)
    && after.expiresAt == (if tokens.expiresIn > 0 then Some(now + tokens.expiresIn) else before.expiresAt)
    && after.apiUrl == before.apiUrl
  }

  /** The part of `Login` after the OAuth run: store a new registration (only
      when none was stored and the run holds one), then the tokens. */
  function StoreLogin(disk: Config.Disk, run: OAuth.LoginRun, now: int, credentialsFault: Option<string>, tokensFault: Option<string>): (e: LoginEffect)
    requires Config.Load(disk).Success?
    requires Config.Load(disk).value.clientId != "" ==>
      run.flow.clientId == Config.Load(disk).value.clientId && run.flow.clientSecret == Config.Load(disk).value.clientSecret
    ensures e.steps == run.steps
    ensures Config.Load(e.disk).Success?
    ensures e.result.Success? ==>
      && run.result.Success?
      && SavesLogin(Config.Load(disk).value, Config.Load(e.disk).value, run.flow, run.result.value, now)
    ensures e.result.Failure? ==>
      && Config.Load(e.disk).value.accessToken == Config.Load(disk).value.accessToken
      && Config.Load(e.disk).value.refreshToken == Config.Load(disk).value.refreshToken
      && Config.Load(e.disk).value.expiresAt == Config.Load(disk).value.expiresAt
  {
    var clientId := Config.Load(disk).value.clientId;
    match run.result
    case Failure(err) => LoginEffect(Failure(Wrap("authentication failed", err, "")), disk, run.steps)
    case Success(tokens) =>
      var creds := OAuth.GetClientCredentials(run.flow);
      var registered :=
        if creds.Some? && clientId == "" then
          Config.SaveClientCredentials(disk, creds.value.clientId, creds.value.clientSecret, credentialsFault)
        else Success(disk);
      match registered
      case Failure(err) => LoginEffect(Failure(Wrap("failed to save client credentials", err, "")), disk, run.steps)
      case Success(d) =>
        match Config.SaveTokens(d, tokens.accessToken, tokens.refreshToken, tokens.expiresIn, now, tokensFault)
        case Failure(err) => LoginEffect(Failure(Wrap("failed to save credentials", err, "")), d, run.steps)
        case Success(d') => LoginEffect(Success(()), d', run.steps)
  }

  /** `Login`: refuse while any token is stored; otherwise run the OAuth flow
      (reusing a stored registration), store a new registration, then store
      the tokens. A failed login never changes the stored tokens. */
  function Login(disk: Config.Disk, now: int, env: OAuth.LoginEnv, credentialsFault: Option<string>, tokensFault: Option<string>): (e: LoginEffect)
    ensures IsLoggedIn(disk) ==> e == LoginEffect(Failure(Msg(AlreadyLoggedInText)), disk, [])
    ensures Config.Load(disk).Failure? ==> e.result.Failure? && e.disk == disk && e.steps == []
    ensures e.result.Success? ==>
      var run := OAuth.Login(LoginFlow(Config.Load(disk).value), env);
      && !IsLoggedIn(disk)
      && run.result.Success?
      && e.steps == run.steps
      && Config.Load(e.disk).Success?
      && SavesLogin(Config.Load(disk).value, Config.Load(e.disk).value, run.flow, run.result.value, now)
    ensures e.result.Failure? && Config.Load(disk).Success? ==>
      && Config.Load(e.disk).Success?
      && Config.Load(e.disk).value.accessToken == Config.Load(disk).value.accessToken
      && Config.Load(e.disk).value.refreshToken == Config.Load(disk).value.refreshToken
      && Config.Load(e.disk).value.expiresAt == Config.Load(disk).value.expiresAt
  {
    if IsLoggedIn(disk) then LoginEffect(Failure(Msg(AlreadyLoggedInText)), disk, [])
    else match Config.GetAPIURL(disk)
    case Failure(err) => LoginEffect(Failure(Wrap("failed to get API URL", err, "")), disk, [])
    case Success(apiUrl) =>
      var (clientId, clientSecret) := Config.GetClientCredentials(disk).value;
      var flow := OAuth.NewFlow(apiUrl);
      var flow := if clientId != "" then OAuth.SetClientCredentials(flow, clientId, clientSecret) else flow;
      assert flow == LoginFlow(Config.Load(disk).value);
      var run := OAuth.Login(flow, env);
      StoreLogin(disk, run, now, credentialsFault, tokensFault)
  }

  /** `Logout`: only a record holding some token can be cleared; the client
      registration survives. */
  function Logout(disk: Config.Disk, fault: Option<string>): (e: Effect)
    ensures e.refreshes == []
    ensures e.result.Success? <==> IsLoggedIn(disk) && fault.None?
    ensures e.result.Failure? ==> e.disk == disk
    ensures Config.Load(disk).Success? && !IsLoggedIn(disk) ==> e.result == Failure(Msg("not logged in"))
    ensures e.result.Success? ==>
      && !IsLoggedIn(e.disk)
      && Config.Load(e.disk).Success?
      && Config.Load(e.disk).value.clientId == Config.Load(disk).value.clientId
      && Config.Load(e.disk).value.clientSecret == Config.Load(disk).value.clientSecret
      && Config.Load(e.disk).value.apiUrl == Config.Load(disk).value.apiUrl
  {
    match Config.Load(disk)
    case Failure(err) => Effect(Failure(Wrap("failed to load config", err, "")), disk, [])
    case Success(c) =>
      if c.accessToken == "" && c.refreshToken == "" then Effect(Failure(Msg("not logged in")), disk, [])
      else match Config.Clear(disk, fault)
        case Failure(err) => Effect(Failure(Wrap("failed to clear credentials", err, "")), disk, [])
        case Success(d) => Effect(Success(()), d, [])
  }

  /** After a logout every API-bound operation is refused without a network
      call, and a second logout reports that nobody is logged in. */
  lemma LoggedOutStaysOut(disk: Config.Disk, fault: Option<string>, now: int,
                          reply: OAuth.Reply<OAuth.TokenResponse>, fault': Option<string>)
    requires Logout(disk, fault).result.Success?
    ensures var d := Logout(disk, fault).disk;
      EnsureAuthenticated(d, now, reply, fault') == Effect(Failure(Msg(NotLoggedInText)), d, [])
    ensures Logout(Logout(disk, fault).disk, fault').result == Failure(Msg("not logged in"))
  {
  }

  /** A successful login leaves a record the next login refuses. */
  lemma LoginThenLoginRefused(disk: Config.Disk, now: int, env: OAuth.LoginEnv, f1: Option<string>, f2: Option<string>,
                              env': OAuth.LoginEnv, f1': Option<string>, f2': Option<string>)
    requires Login(disk, now, env, f1, f2).result.Success?
    requires OAuth.Login(LoginFlow(Config.Load(disk).value), env).result.value.accessToken != ""
    ensures Login(Login(disk, now, env, f1, f2).disk, now, env', f1', f2').result == Failure(Msg(AlreadyLoggedInText))
  {
  }
}

=== FILE: commands.dfy ===
/** What the `apps` and `projects` commands share: finding a project by the
    name or id the user typed (the same loop appears in `apps create
    --project`, `apps list` and `projects delete`, with the same message when
    nothing matches), and the confirmation gate in front of a deletion. */
module Commands {
  import opened Wrappers
  import opened Errors
  import opened Resources

  /** The user's argument names project `p` by id or by name. */
  predicate Names(p: Project, arg: string) {
    p.id == arg || p.name == arg
  }

  function ProjectNotFoundText(arg: string): string {
    "project not found: " + arg + "\n\nUse 'kamui projects list' to see available projects"
  }

  /** The index of the first project at or after `from` that `arg` names. */
  function FirstNamedFrom(projects: seq<Project>, arg: string, from: nat): (r: Option<nat>)
    requires from <= |projects|
    ensures r.Some? ==> from <= r.value < |projects| && Names(projects[r.value], arg)
    ensures r.Some? ==> forall j :: from <= j < r.value ==> !Names(projects[j], arg)
    ensures r.None? ==> forall j :: from <= j < |projects| ==> !Names(projects[j], arg)
    decreases |projects| - from
  {
    if from == |projects| then None
    else if Names(projects[from], arg) then Some(from)
    else FirstNamedFrom(projects, arg, from + 1)
  }

  /** The lookup loop: the first project in list order whose id or name is
      `arg`, or the "project not found" error when there is none. */
  function FindProject(projects: seq<Project>, arg: string): (r: Outcome<Project>)
    ensures r.Failure? <==> forall j :: 0 <= j < |projects| ==> !Names(projects[j], arg)
    ensures r.Failure? ==> r.error == Msg(ProjectNotFoundText(arg))
    ensures r.Success? ==>
      exists i :: 0 <= i < |projects| && projects[i] == r.value && Names(projects[i], arg)
        && forall j :: 0 <= j < i ==> !Names(projects[j], arg)
  {
    match FirstNamedFrom(projects, arg, 0)
    case None => Failure(Msg(ProjectNotFoundText(arg)))
    case Some(i) => Success(projects[i])
  }

  /** A project that `arg` names and that comes before every other such
      project is the one found: the result does not depend on later entries. */
  lemma {:induction false} FindProjectIsFirst(projects: seq<Project>, arg: string, i: nat)
    requires i < |projects| && Names(projects[i], arg)
    requires forall j :: 0 <= j < i ==> !Names(projects[j], arg)
    ensures FindProject(projects, arg) == Success(projects[i])
  {
    var r := FindProject(projects, arg);
    assert r.Success?;
    var k :| 0 <= k < |projects| && projects[k] == r.value && Names(projects[k], arg)
      && forall j :: 0 <= j < k ==> !Names(projects[j], arg);
    assert k == i;
  }

  /** The answer to a yes/no prompt, or the prompt's own failure. */
  datatype Prompt = Answered(yes: bool) | PromptFailed(err: Error)

  /** A deletion goes ahead with `--yes`, or when the user answers yes. */
  predicate Confirmed(skipConfirm: bool, answer: Prompt) {
    skipConfirm || answer == Answered(true)
  }

  /** A delete command's outcome: its result, the id it asked the service to
      delete (if any), whether the user declined ("Cancelled."), and the name
      it showed for the target. */
  datatype DeleteRun = DeleteRun(result: Outcome<()>, deleted: Option<string>, cancelled: bool, shown: string)
}

=== FILE: config.dfy ===
/** The credential store (internal/config/config.go): one record on disk
    holding the OAuth tokens, their expiry, the API URL and the registered
    client. File-system mechanics are abstracted: the file is `Missing`,
    `Unreadable` (a read error other than "does not exist", or content that
    is not a JSON record) or `Stored`; a write or remove either succeeds or
    fails with the operating system's reason, given as `fault`. Time is in
    whole seconds; Go's zero `time.Time` is `None`. */
module Config {
  import opened Wrappers
  import opened Errors

  const DefaultAPIURL: string := "https://api.kamui-platform.com"

  /** `time.Minute`: how long before its expiry `IsLoggedIn` stops trusting
      a token. */
  const ExpiryBuffer: int := 60

  datatype Config = Config(
    accessToken: string,
    refreshToken: string,
    expiresAt: Option<int>,
    apiUrl: string,
    clientId: string,
    clientSecret: string)

  datatype Disk = Missing | Unreadable(reason: string) | Stored(config: Config)

  /** `!ExpiresAt.IsZero() && t.After(ExpiresAt)`: a recorded expiry lies
      strictly before instant `t`. */
  predicate ExpiredAt(expiresAt: Option<int>, t: int) {
    expiresAt.Some? && t > expiresAt.value
  }

  /** Nothing but the API URL is set. */
  predicate Blank(c: Config) {
    && c.accessToken == ""
    && c.refreshToken == ""
    && c.expiresAt.None?
    && c.clientId == ""
    && c.clientSecret == ""
  }

  /** The substitution Load makes for an empty API URL. */
  function WithDefaultUrl(c: Config): (r: Config)
    ensures r.apiUrl != ""
    ensures r.(apiUrl := c.apiUrl) == c
    ensures c.apiUrl != "" ==> r == c
  {
    if c.apiUrl == "" then c.(apiUrl := DefaultAPIURL) else c
  }

  /** `Manager.Load`. */
  function Load(disk: Disk): (r: Outcome<Config>)
    ensures r.Failure? <==> disk.Unreadable?
    ensures r.Success? ==> r.value.apiUrl != ""
    ensures disk.Missing? ==> r.Success? && Blank(r.value) && r.value.apiUrl == DefaultAPIURL
    ensures disk.Stored? ==> r.Success? && r.value.(apiUrl := disk.config.apiUrl) == disk.config
    ensures disk.Stored? && disk.config.apiUrl == "" ==> r.value.apiUrl == DefaultAPIURL
    ensures disk.Stored? && disk.config.apiUrl != "" ==> r.value == disk.config
  {
    match disk
    case Missing => Success(Config("", "", None, DefaultAPIURL, "", ""))
    case Unreadable(reason) => Failure(Msg(reason))
    case Stored(c) => Success(WithDefaultUrl(c))
  }

  /** `Manager.Save`: the directory and file are (re)written, or the write
      fails and the old file stays. */
  function Save(c: Config, fault: Option<string>): (r: Outcome<Disk>)
    ensures r.Success? <==> fault.None?
    ensures r.Success? ==> Load(r.value) == Success(WithDefaultUrl(c))
  {
    match fault
    case Some(reason) => Failure(Msg(reason))
    case None => Success(Stored(c))
  }

  /** Saving the record just loaded and loading it again changes nothing. */
  lemma ReloadIsStable(disk: Disk)
    requires Load(disk).Success?
    ensures Load(Save(Load(disk).value, None).value) == Load(disk)
  {
  }

  /** `Manager.Clear`: blank the token fields, keep the client registration
      and the API URL. */
  function Clear(disk: Disk, fault: Option<string>): (r: Outcome<Disk>)
    ensures r.Success? <==> Load(disk).Success? && fault.None?
    ensures r.Success? ==> r.value.Stored?
    ensures r.Success? ==>
      var before := Load(disk).value;
      var after := Load(r.value).value;
      && after.accessToken == "" && after.refreshToken == "" && after.expiresAt.None?
      && after.clientId == before.clientId
      && after.clientSecret == before.clientSecret
      && after.apiUrl == before.apiUrl
  {
    match Load(disk)
    case Failure(e) => Failure(e)
    case Success(c) => Save(c.(accessToken := "", refreshToken := "", expiresAt := None), fault)
  }

  /** `Manager.Delete`: removing a file that is not there succeeds. */
  function Delete(disk: Disk, fault: Option<string>): (r: Outcome<Disk>)
    ensures r.Success? ==> r.value == Missing
    ensures r.Failure? <==> !disk.Missing? && fault.Some?
  {
    if disk.Missing? then Success(Missing)
    else match fault
      case Some(reason) => Failure(Msg(reason))
      case None => Success(Missing)
  }

  /** Deleting twice is deleting once: the second call always succeeds. */
  lemma DeleteIdempotent(disk: Disk, fault: Option<string>, fault': Option<string>)
    requires Delete(disk, fault).Success?
    ensures Delete(Delete(disk, fault).value, fault') == Delete(disk, fault)
  {
  }

  /** `Manager.IsLoggedIn` at instant `now`: there is an access token and it
      stays unexpired for the whole coming minute. */
  function IsLoggedIn(disk: Disk, now: int): (r: bool)
    ensures r <==>
      && Load(disk).Success?
      && Load(disk).value.accessToken != ""
      && forall t :: now <= t <= now + ExpiryBuffer ==> !ExpiredAt(Load(disk).value.expiresAt, t)
  {
    match Load(disk)
    case Failure(_) => false
    case Success(c) => c.accessToken != "" && !ExpiredAt(c.expiresAt, now + ExpiryBuffer)
  }

  /** `Manager.GetAccessToken` at instant `now`: no buffer here. */
  function GetAccessToken(disk: Disk, now: int): (r: Outcome<string>)
    ensures r.Success? <==>
      Load(disk).Success? && Load(disk).value.accessToken != "" && !ExpiredAt(Load(disk).value.expiresAt, now)
    ensures r.Success? ==> r.value == Load(disk).value.accessToken
    ensures Load(disk).Success? && Load(disk).value.accessToken == "" ==> r == Failure(Msg("not logged in"))
    ensures Load(disk).Success? && Load(disk).value.accessToken != "" && ExpiredAt(Load(disk).value.expiresAt, now)
      ==> r == Failure(Msg("token expired"))
  {
    match Load(disk)
    case Failure(e) => Failure(e)
    case Success(c) =>
      if c.accessToken == "" then Failure(Msg("not logged in"))
      else if ExpiredAt(c.expiresAt, now) then Failure(Msg("token expired"))
      else Success(c.accessToken)
  }

  /** Whatever IsLoggedIn accepts at `now`, GetAccessToken hands out unchanged
      at `now` and at every instant of the following minute: the buffer only
      makes IsLoggedIn stricter. */
  lemma LoggedInYieldsToken(disk: Disk, now: int, later: int)
    requires IsLoggedIn(disk, now)
    requires now <= later <= now + ExpiryBuffer
    ensures GetAccessToken(disk, later) == Success(Load(disk).value.accessToken)
  {
    assert !ExpiredAt(Load(disk).value.expiresAt, later);
  }

  /** The converse fails: a token with less than a minute left is still handed
      out by GetAccessToken while IsLoggedIn already rejects it. */
  lemma BufferWindow(c: Config, now: int, left: int)
    requires c.accessToken != ""
    requires 0 <= left < ExpiryBuffer
    requires c.expiresAt == Some(now + left)
    ensures GetAccessToken(Stored(c), now) == Success(c.accessToken)
    ensures !IsLoggedIn(Stored(c), now)
  {
    assert ExpiredAt(Load(Stored(c)).value.expiresAt, now + ExpiryBuffer);
  }

  /** `Manager.GetAPIURL`: never empty. */
  function GetAPIURL(disk: Disk): (r: Outcome<string>)
    ensures r.Success? <==> !disk.Unreadable?
    ensures r.Success? ==> r.value != "" && r.value == Load(disk).value.apiUrl
    ensures disk.Stored? && disk.config.apiUrl != "" ==> r == Success(disk.config.apiUrl)
  {
    match Load(disk)
    case Failure(e) => Failure(e)
    case Success(c) => if c.apiUrl == "" then Success(DefaultAPIURL) else Success(c.apiUrl)
  }

  /** `Manager.GetClientCredentials`: the stored id and secret, empty when
      the CLI never registered. */
  function GetClientCredentials(disk: Disk): (r: Outcome<(string, string)>)
    ensures r.Success? <==> !disk.Unreadable?
    ensures r.Success? ==> r.value == (Load(disk).value.clientId, Load(disk).value.clientSecret)
    ensures disk.Missing? ==> r == Success(("", ""))
  {
    match Load(disk)
    case Failure(e) => Failure(e)
    case Success(c) => Success((c.clientId, c.clientSecret))
  }

  /** `Manager.SaveClientCredentials`: only the client id and secret change. */
  function SaveClientCredentials(disk: Disk, clientId: string, clientSecret: string, fault: Option<string>): (r: Outcome<Disk>)
    ensures r.Success? <==> Load(disk).Success? && fault.None?
    ensures r.Success? ==> r.value.Stored?
    ensures r.Success? ==>
      var before := Load(disk).value;
      var after := Load(r.value).value;
      && after.clientId == clientId && after.clientSecret == clientSecret
      && after.accessToken == before.accessToken
      && after.refreshToken == before.refreshToken
      && after.expiresAt == before.expiresAt
      && after.apiUrl == before.apiUrl
  {
    match Load(disk)
    case Failure(e) => Failure(e)
    case Success(c) => Save(c.(clientId := clientId, clientSecret := clientSecret), fault)
  }

  /** `Manager.SaveTokens` at instant `now`: both tokens are overwritten; the
      expiry moves to `now + expiresIn` only for a positive `expiresIn` and is
      kept otherwise; the client registration and API URL are untouched. */
  function SaveTokens(disk: Disk, accessToken: string, refreshToken: string, expiresIn: int, now: int, fault: Option<string>): (r: Outcome<Disk>)
    ensures r.Success? <==> Load(disk).Success? && fault.None?
    ensures r.Success? ==> r.value.Stored?
    ensures r.Success? ==>
      var before := Load(disk).value;
      var after := Load(r.value).value;
      && after.accessToken == accessToken
      && after.refreshToken == refreshToken
      && (expiresIn > 0 ==> after.expiresAt == Some(now + expiresIn))
      && (expiresIn <= 0 ==> after.expiresAt == before.expiresAt)
      && after.clientId == before.clientId
      && after.clientSecret == before.clientSecret
      && after.apiUrl == before.apiUrl
  {
    match Load(disk)
    case Failure(e) => Failure(e)
    case Success(c) =>
      var expiresAt := if expiresIn > 0 then Some(now + expiresIn) else c.expiresAt;
      Save(c.(accessToken := accessToken, refreshToken := refreshToken, expiresAt := expiresAt), fault)
  }
}

=== FILE: errors.dfy ===
/** Errors as the CLI builds them: plain messages (`errors.New`,
    `fmt.Errorf` without `%w`), the API client's `APIError`, and
    `fmt.Errorf("<context>: %w<hint>", cause)` wrappers. */
module Errors {
  import opened Wrappers
  import opened Text

  /** `api.APIError`: an HTTP status of 400 or more with the message to show. */
  datatype ApiError = ApiError(statusCode: int, message: string)

  datatype Error =
    | Msg(text: string)
    | Api(failure: ApiError)
    | Wrap(context: string, cause: Error, hint: string)

  type Outcome<T> = Result<T, Error>

  const ApiErrorLead := "API error (status "

  /** `APIError.Error()`: "API error (status N): message", with N the
      status code in decimal. */
  function ApiErrorText(e: ApiError): (s: string)
    ensures HasPrefix(s, ApiErrorLead)
    ensures |s| == |ApiErrorLead| + |IntToString(e.statusCode)| + 3 + |e.message|
    ensures s[|ApiErrorLead|..|ApiErrorLead| + |IntToString(e.statusCode)|] == IntToString(e.statusCode)
    ensures HasSuffix(s, "): " + e.message)
  {
    var s := ApiErrorLead + IntToString(e.statusCode) + "): " + e.message;
    PrefixOfConcat(ApiErrorLead, IntToString(e.statusCode) + "): " + e.message);
    assert s == (ApiErrorLead + IntToString(e.statusCode)) + ("): " + e.message);
    PrefixOfConcat(ApiErrorLead + IntToString(e.statusCode), "): " + e.message);
    s
  }

  /** `APIError.IsUnauthorized()`: HTTP 401. */
  predicate IsUnauthorized(e: ApiError) {
    e.statusCode == 401
  }

  /** `APIError.IsNotFound()`: HTTP 404. */
  predicate IsNotFound(e: ApiError) {
    e.statusCode == 404
  }

  /** Different API errors never render the same text: the status and the
      message can both be read back from it. */
  lemma {:induction false} ApiErrorTextInjective(a: ApiError, b: ApiError)
    requires ApiErrorText(a) == ApiErrorText(b)
    ensures a == b
  {
    var s := ApiErrorText(a);
    var da, db := IntToString(a.statusCode), IntToString(b.statusCode);
    var n := |ApiErrorLead|;
    assert s[n + |da|] == ')';
    assert ApiErrorText(b)[n + |db|] == ')';
    assert da == db;
    IntToStringInjective(a.statusCode, b.statusCode);
    assert a.message == s[n + |da| + 3..];
  }

  /** The text `err.Error()` returns. A wrapper's text is its context, ": ",
      the cause's own text and the hint, so the cause's text can be cut back
      out of it. */
  function Message(e: Error): (s: string)
    ensures e.Msg? ==> s == e.text
    ensures e.Api? ==> s == ApiErrorText(e.failure)
    ensures e.Wrap? ==>
      && |s| == |e.context| + 2 + |Message(e.cause)| + |e.hint|
      && s[..|e.context| + 2] == e.context + ": "
      && s[|e.context| + 2..|s| - |e.hint|] == Message(e.cause)
      && s[|s| - |e.hint|..] == e.hint
  {
    match e
    case Msg(t) => t
    case Api(a) => ApiErrorText(a)
    case Wrap(context, cause, hint) => context + ": " + Message(cause) + hint
  }

  /** A wrapper's text starts with its context and ends with its hint, whatever
      the cause says. */
  lemma WrapFraming(context: string, cause: Error, hint: string)
    ensures HasPrefix(Message(Wrap(context, cause, hint)), context + ": ")
    ensures HasSuffix(Message(Wrap(context, cause, hint)), hint)
  {
    var m := Message(Wrap(context, cause, hint));
    assert m == (context + ": ") + (Message(cause) + hint);
    PrefixOfConcat(context + ": ", Message(cause) + hint);
    assert m == (context + ": " + Message(cause)) + hint;
    PrefixOfConcat(context + ": " + Message(cause), hint);
  }
}

=== FILE: oauth.dfy ===
/** The OAuth authorization-code flow (internal/auth/oauth.go), reduced to
    its decisions. Sockets, the browser, randomness and the HTTP transport are
    inputs: which local ports can be bound, what each endpoint replied, which
    bytes the random source produced, and which event ended the wait for the
    callback. The flow never writes the credential store itself. */
module OAuth {
  import opened Wrappers
  import opened Text
  import opened Errors

  const DefaultCallbackPort: int := 9876
  /** How many consecutive ports, from the callback port on, are probed. */
  const PortWindow: int := 10
  const DefaultClientName: string := "Kamui CLI"
  const RequestedScope: string := "full"
  /** Random bytes in a state nonce. */
  const StateBytes: int := 16

  datatype Flow = Flow(apiUrl: string, clientId: string, clientSecret: string, callbackPort: int)

  /** `NewOAuthFlow`: no client credentials yet, the default callback port. */
  function NewFlow(apiUrl: string): (f: Flow)
    ensures f.apiUrl == apiUrl && f.callbackPort == DefaultCallbackPort
    ensures GetClientCredentials(f).None? && f.clientSecret == ""
  {
    Flow(apiUrl, "", "", DefaultCallbackPort)
  }

  /** `SetClientCredentials`: the flow reports exactly the credentials set,
      unless the id is empty; the server address and port are kept. */
  function SetClientCredentials(f: Flow, clientId: string, clientSecret: string): (g: Flow)
    ensures g.apiUrl == f.apiUrl && g.callbackPort == f.callbackPort
    ensures g.clientId == clientId && g.clientSecret == clientSecret
    ensures GetClientCredentials(g) == if clientId == "" then None else Some(ClientCredentials(clientId, clientSecret))
  {
    f.(clientId := clientId, clientSecret := clientSecret)
  }

  datatype ClientCredentials = ClientCredentials(clientId: string, clientSecret: string)

  /** `OAuthFlow.GetClientCredentials`: nil exactly when no client id is set. */
  function GetClientCredentials(f: Flow): (r: Option<ClientCredentials>)
    ensures r.None? <==> f.clientId == ""
    ensures r.Some? ==> r.value.clientId == f.clientId && r.value.clientSecret == f.clientSecret
  {
    if f.clientId == "" then None else Some(ClientCredentials(f.clientId, f.clientSecret))
  }

  datatype OAuthResult = OAuthResult(accessToken: string, refreshToken: string, expiresIn: int, scope: string)

  datatype TokenResponse = TokenResponse(
    accessToken: string, tokenType: string, expiresIn: int, refreshToken: string, scope: string)

  datatype RegistrationResponse = RegistrationResponse(clientId: string, clientSecret: string)

  /** What one call to the authorization server came to: the request never
      completed, or a status arrived together with the outcome of decoding
      the JSON body (the decoder's complaint when it failed). */
  datatype Reply<T> = Unreachable(reason: string) | Replied(status: int, body: Result<T, string>)

  // ---------------------------------------------------------------------
  // Loopback redirect (RFC 8252, section 7.3)

  /** The probing loop of `findAvailablePort`, from `port` up to but not
      including `end`. `bindable` says which ports `net.Listen` accepts. */
  function ProbePorts(port: int, end: int, bindable: int -> bool): (r: Outcome<int>)
    ensures r.Success? ==> port <= r.value < end && bindable(r.value)
    ensures r.Success? ==> forall p :: port <= p < r.value ==> !bindable(p)
    ensures r.Failure? ==> forall p :: port <= p < end ==> !bindable(p)
    ensures r.Failure? ==> r.error == Msg("no available port found")
    decreases end - port
  {
    if port >= end then Failure(Msg("no available port found"))
    else if bindable(port) then Success(port)
    else ProbePorts(port + 1, end, bindable)
  }

  /** `findAvailablePort`: the lowest bindable port among the ten from the
      callback port on, or an error when all ten are taken. */
  function FindAvailablePort(f: Flow, bindable: int -> bool): (r: Outcome<int>)
    ensures r.Success? <==> exists p :: f.callbackPort <= p < f.callbackPort + PortWindow && bindable(p)
    ensures r.Success? ==> f.callbackPort <= r.value < f.callbackPort + PortWindow && bindable(r.value)
    ensures r.Success? ==> forall p :: f.callbackPort <= p < r.value ==> !bindable(p)
  {
    ProbePorts(f.callbackPort, f.callbackPort + PortWindow, bindable)
  }

  const RedirectLead: string := "http://localhost:"
  const RedirectPath: string := "/callback"

  /** `http://localhost:<port>/callback`. */
  function RedirectUri(port: int): string {
    RedirectLead + IntToString(port) + RedirectPath
  }

  /** Different ports give different redirect URIs, so the URI names the
      listener it was built for. */
  lemma RedirectUriInjective(p: int, q: int)
    requires RedirectUri(p) == RedirectUri(q)
    ensures p == q
  {
    var x, y := IntToString(p), IntToString(q);
    assert |x| == |y|;
    assert x == RedirectUri(p)[|RedirectLead|..|RedirectLead| + |x|];
    assert y == RedirectUri(q)[|RedirectLead|..|RedirectLead| + |y|];
    IntToStringInjective(p, q);
  }

  // ---------------------------------------------------------------------
  // Dynamic client registration (RFC 7591, section 3)

  datatype RegistrationRequest = RegistrationRequest(
    url: string, clientName: string, redirectUris: seq<string>, grantTypes: seq<string>, scope: string)

  /** The JSON document `RegisterClient` posts. */
  function RegistrationRequestFor(f: Flow, redirectUri: string): (r: RegistrationRequest)
    ensures r.url == f.apiUrl + "/oauth/register"
    ensures r.clientName == DefaultClientName && r.scope == RequestedScope
    ensures r.redirectUris == [redirectUri]
    ensures |r.grantTypes| == 2
    // every grant the flow later asks the token endpoint for is registered
    ensures forall code :: ExchangeRequest(f, code, redirectUri).form["grant_type"] in r.grantTypes
    ensures forall token :: RefreshRequest(f, token).form["grant_type"] in r.grantTypes
  {
    RegistrationRequest(
      f.apiUrl + "/oauth/register", DefaultClientName, [redirectUri],
      ["authorization_code", "refresh_token"], RequestedScope)
  }

  /** `RegisterClient`: only 200 and 201 are accepted; the returned id and
      secret are taken over as they are. */
  function RegisterClient(reply: Reply<RegistrationResponse>): (r: Outcome<ClientCredentials>)
    ensures r.Success? <==> reply.Replied? && reply.status in {200, 201} && reply.body.Success?
    ensures r.Success? ==>
      r.value == ClientCredentials(reply.body.value.clientId, reply.body.value.clientSecret)
    ensures reply.Replied? && reply.status !in {200, 201} ==>
      Message(r.error) == "client registration failed with status " + IntToString(reply.status)
  {
    match reply
    case Unreachable(reason) => Failure(Wrap("registration request failed", Msg(reason), ""))
    case Replied(status, body) =>
      if status != 201 && status != 200 then
        Failure(Msg("client registration failed with status " + IntToString(status)))
      else match body
        case Failure(reason) => Failure(Wrap("failed to parse registration response", Msg(reason), ""))
        case Success(resp) => Success(ClientCredentials(resp.clientId, resp.clientSecret))
  }

  // ---------------------------------------------------------------------
  // State nonce (RFC 6749, section 10.12)

  type Seed = s: seq<byte> | |s| == StateBytes witness seq(16, _ => 0 as byte)

  /** `generateRandomState`: the 16 random bytes, hex-encoded. */
  function GenerateState(draw: Result<Seed, string>): (r: Outcome<string>)
    ensures r.Success? <==> draw.Success?
    ensures r.Success? ==> |r.value| == 2 * StateBytes
    ensures r.Success? ==> forall i :: 0 <= i < |r.value| ==> IsLowerHex(r.value[i])
    ensures r.Success? ==> HexDecode(r.value) == Some(draw.value)
  {
    match draw
    case Failure(reason) => Failure(Msg(reason))
    case Success(bytes) =>
      HexRoundTrip(bytes);
      Success(HexEncode(bytes))
  }

  // ---------------------------------------------------------------------
  // The callback route (RFC 6749, sections 4.1.2 and 4.1.2.1)

  /** The query parameters the handler reads; an absent one reads as "". */
  datatype CallbackQuery = CallbackQuery(state: string, error: string, errorDescription: string, code: string)

  /** What the browser is shown: a plain-text `http.Error`, or the HTML page
      (status 200) carrying a message. */
  datatype Page = PlainError(status: int, text: string) | HtmlPage(message: string)

  /** What the handler passes to the waiting flow: one code or one error. */
  datatype Signal = CodeSignal(code: string) | ErrorSignal(err: Error)

  datatype Handled = Handled(signal: Signal, page: Page)

  /** The `/callback` handler: the state check comes first, then the
      provider's error report, then the presence of a code. */
  function HandleCallback(expectedState: string, q: CallbackQuery): (h: Handled)
    ensures h.signal.CodeSignal? <==> q.state == expectedState && q.error == "" && q.code != ""
    ensures h.signal.CodeSignal? ==> h.signal.code == q.code && h.page.HtmlPage?
    ensures q.state != expectedState ==>
      h.signal == ErrorSignal(Msg("state mismatch")) && h.page == PlainError(400, "State mismatch")
    ensures q.state == expectedState && q.error != "" ==>
      h.signal == ErrorSignal(Msg("OAuth error: " + q.error + " - " + q.errorDescription))
    ensures q.state == expectedState && q.error == "" && q.code == "" ==>
      h.signal == ErrorSignal(Msg("no authorization code received")) && h.page.PlainError?
  {
    if q.state != expectedState then
      Handled(ErrorSignal(Msg("state mismatch")), PlainError(400, "State mismatch"))
    else if q.error != "" then
      Handled(ErrorSignal(Msg("OAuth error: " + q.error + " - " + q.errorDescription)),
              HtmlPage("Authentication failed. You can close this window."))
    else if q.code == "" then
      Handled(ErrorSignal(Msg("no authorization code received")), PlainError(400, "No code received"))
    else
      Handled(CodeSignal(q.code), HtmlPage("Authentication successful! You can close this window."))
  }

  /** A forged state never delivers a code, whatever else the request holds. */
  lemma ForgedStateDeliversNothing(expectedState: string, q: CallbackQuery)
    requires q.state != expectedState
    ensures !HandleCallback(expectedState, q).signal.CodeSignal?
    ensures Message(HandleCallback(expectedState, q).signal.err) == "state mismatch"
  {
  }

  // ---------------------------------------------------------------------
  // Authorization request (RFC 6749, section 4.1.1)

  /** The authorization URL as endpoint plus query parameters; the
      percent-encoding of `url.Values.Encode` is not modelled. */
  datatype AuthUrl = AuthUrl(endpoint: string, query: map<string, string>)

  /** `buildAuthURL`. */
  function BuildAuthURL(f: Flow, redirectUri: string, state: string): (u: AuthUrl)
    ensures u.endpoint == f.apiUrl + "/oauth/authorize"
    ensures u.query.Keys == {"client_id", "redirect_uri", "response_type", "scope", "state"}
    ensures u.query["client_id"] == f.clientId && u.query["redirect_uri"] == redirectUri
    ensures u.query["response_type"] == "code" && u.query["scope"] == RequestedScope
    ensures u.query["state"] == state
  {
    AuthUrl(f.apiUrl + "/oauth/authorize",
      map["client_id" := f.clientId, "redirect_uri" := redirectUri, "response_type" := "code",
          "scope" := RequestedScope, "state" := state])
  }

  // ---------------------------------------------------------------------
  // Token endpoint (RFC 6749, sections 4.1.3 and 6)

  /** A form-encoded POST to the token endpoint. */
  datatype TokenRequest = TokenRequest(url: string, form: map<string, string>)

  /** One call to the token endpoint: what was sent and what it came to. */
  datatype TokenCall = TokenCall(request: TokenRequest, result: Outcome<OAuthResult>)

  /** The client's own fields: `client_secret` only when there is one, so
      public clients send none. */
  function ClientFields(f: Flow): (form: map<string, string>)
    ensures "client_id" in form && form["client_id"] == f.clientId
    ensures "client_secret" in form <==> f.clientSecret != ""
    ensures "client_secret" in form ==> form["client_secret"] == f.clientSecret
    ensures form.Keys <= {"client_id", "client_secret"}
  {
    map["client_id" := f.clientId] + (if f.clientSecret != "" then map["client_secret" := f.clientSecret] else map[])
  }

  function TokenEndpoint(f: Flow): string {
    f.apiUrl + "/oauth/token"
  }

  /** The form `RefreshTokens` posts. */
  function RefreshRequest(f: Flow, refreshToken: string): (r: TokenRequest)
    ensures r.url == TokenEndpoint(f)
    ensures r.form.Keys == {"grant_type", "refresh_token"} + ClientFields(f).Keys
    ensures r.form["grant_type"] == "refresh_token" && r.form["refresh_token"] == refreshToken
    ensures r.form["client_id"] == f.clientId
    ensures "client_secret" in r.form <==> f.clientSecret != ""
  {
    TokenRequest(TokenEndpoint(f),
      ClientFields(f) + map["grant_type" := "refresh_token", "refresh_token" := refreshToken])
  }

  /** The form `exchangeCodeForTokens` posts. */
  function ExchangeRequest(f: Flow, code: string, redirectUri: string): (r: TokenRequest)
    ensures r.url == TokenEndpoint(f)
    ensures r.form.Keys == {"grant_type", "code", "redirect_uri"} + ClientFields(f).Keys
    ensures r.form["grant_type"] == "authorization_code" && r.form["code"] == code
    ensures r.form["redirect_uri"] == redirectUri && r.form["client_id"] == f.clientId
    ensures "client_secret" in r.form <==> f.clientSecret != ""
  {
    TokenRequest(TokenEndpoint(f),
      ClientFields(f) + map["grant_type" := "authorization_code", "code" := code, "redirect_uri" := redirectUri])
  }

  /** The status and body rules both token calls share: anything but 200 is an
      error carrying the status; on 200 the four fields are copied over. The
      `operation` ("token refresh", "token exchange") starts each message. */
  function ReadTokenReply(operation: string, reply: Reply<TokenResponse>): (r: Outcome<OAuthResult>)
    ensures r.Success? <==> reply.Replied? && reply.status == 200 && reply.body.Success?
    ensures r.Success? ==>
      var t := reply.body.value;
      r.value == OAuthResult(t.accessToken, t.refreshToken, t.expiresIn, t.scope)
    ensures reply.Replied? && reply.status != 200 ==>
      r == Failure(Msg(operation + " failed with status " + IntToString(reply.status)))
  {
    match reply
    case Unreachable(reason) => Failure(Wrap(operation + " request failed", Msg(reason), ""))
    case Replied(status, body) =>
      if status != 200 then Failure(Msg(operation + " failed with status " + IntToString(status)))
      else match body
        case Failure(reason) => Failure(Wrap("failed to parse token response", Msg(reason), ""))
        case Success(t) => Success(OAuthResult(t.accessToken, t.refreshToken, t.expiresIn, t.scope))
  }

  /** `RefreshTokens`. */
  function RefreshTokens(f: Flow, refreshToken: string, reply: Reply<TokenResponse>): (c: TokenCall)
    ensures c.request == RefreshRequest(f, refreshToken)
    ensures c.result == ReadTokenReply("token refresh", reply)
  {
    TokenCall(RefreshRequest(f, refreshToken), ReadTokenReply("token refresh", reply))
  }

  /** `exchangeCodeForTokens`. */
  function ExchangeCodeForTokens(f: Flow, code: string, redirectUri: string, reply: Reply<TokenResponse>): (c: TokenCall)
    ensures c.request == ExchangeRequest(f, code, redirectUri)
    ensures c.result == ReadTokenReply("token exchange", reply)
  {
    TokenCall(ExchangeRequest(f, code, redirectUri), ReadTokenReply("token exchange", reply))
  }

  // ---------------------------------------------------------------------
  // The interactive login

  /** The event that ends the wait: the first callback request, the caller's
      cancellation (with the context's reason), or the five-minute timer. */
  datatype WaitEvent = Callback(query: CallbackQuery) | Cancelled(reason: string) | TimedOut

  /** Everything a login run learns from outside the process. */
  datatype LoginEnv = LoginEnv(
    bindable: int -> bool,
    registration: Reply<RegistrationResponse>,
    draw: Result<Seed, string>,
    first: WaitEvent,
    exchange: Reply<TokenResponse>)

  /** Externally visible steps of a run, in order. */
  datatype Step =
    | Registered(registration: RegistrationRequest)
    | StateDrawn
    | ServerStarted(port: int)
    | BrowserOpened(url: AuthUrl)
    | TokenRequested(token: TokenRequest)
    | ServerShutdown

  /** A run's result, the flow afterwards (with adopted credentials), and its steps. */
  datatype LoginRun = LoginRun(result: Outcome<OAuthResult>, flow: Flow, steps: seq<Step>)

  predicate Started(steps: seq<Step>) {
    exists i :: 0 <= i < |steps| && steps[i].ServerStarted?
  }

  predicate Drawn(steps: seq<Step>) {
    exists i :: 0 <= i < |steps| && steps[i].StateDrawn?
  }

  /** How the wait ended: the run's result and the steps after the browser
      was opened. */
  datatype Ending = Ending(result: Outcome<OAuthResult>, tail: seq<Step>)

  /** The `select` in `Login`: the first event decides; only a callback that
      passes the handler's checks leads to the token exchange, and the
      listener is shut down on every path. */
  function AwaitCallback(f: Flow, redirectUri: string, state: string, env: LoginEnv): (e: Ending)
    ensures 1 <= |e.tail| <= 2 && e.tail[|e.tail| - 1] == ServerShutdown
    ensures e.result.Success? ==>
      && env.first.Callback?
      && HandleCallback(state, env.first.query).signal.CodeSignal?
    ensures env.first.Callback? && HandleCallback(state, env.first.query).signal.CodeSignal? ==>
      e.tail[0] == TokenRequested(ExchangeRequest(f, env.first.query.code, redirectUri))
    ensures |e.tail| == 2 ==> e.tail[0].TokenRequested?
    ensures env.first.Callback? && HandleCallback(state, env.first.query).signal.CodeSignal? ==>
      e.result == ReadTokenReply("token exchange", env.exchange)
    ensures env.first.Callback? && HandleCallback(state, env.first.query).signal.ErrorSignal? ==>
      e.result == Failure(HandleCallback(state, env.first.query).signal.err)
    ensures env.first.Cancelled? ==> e.result == Failure(Msg(env.first.reason))
    ensures env.first.TimedOut? ==> e.result == Failure(Msg("authentication timed out"))
  {
    match env.first
    case Callback(q) => (
      match HandleCallback(state, q).signal
      case CodeSignal(code) =>
        var call := ExchangeCodeForTokens(f, code, redirectUri, env.exchange);
        Ending(call.result, [TokenRequested(call.request), ServerShutdown])
      case ErrorSignal(e) => Ending(Failure(e), [ServerShutdown]))
    case Cancelled(reason) => Ending(Failure(Msg(reason)), [ServerShutdown])
    case TimedOut => Ending(Failure(Msg("authentication timed out")), [ServerShutdown])
  }

  /** From the state nonce on: start the listener, open the browser, then wait. */
  function Authorize(f: Flow, port: int, env: LoginEnv, before: seq<Step>): (run: LoginRun)
    ensures run.flow == f
    ensures env.draw.Failure? ==>
      && run.result == Failure(Wrap("failed to generate state", GenerateState(env.draw).error, ""))
      && run.steps == before + [StateDrawn]
    ensures env.draw.Success? ==>
      var state := HexEncode(env.draw.value);
      var e := AwaitCallback(f, RedirectUri(port), state, env);
      && run.result == e.result
      && run.steps == before + [StateDrawn, ServerStarted(port), BrowserOpened(BuildAuthURL(f, RedirectUri(port), state))] + e.tail
  {
    var redirectUri := RedirectUri(port);
    match GenerateState(env.draw)
    case Failure(e) => LoginRun(Failure(Wrap("failed to generate state", e, "")), f, before + [StateDrawn])
    case Success(state) =>
      var e := AwaitCallback(f, redirectUri, state, env);
      LoginRun(e.result, f, before + [StateDrawn, ServerStarted(port), BrowserOpened(BuildAuthURL(f, redirectUri, state))] + e.tail)
  }

  /** `OAuthFlow.Login`. */
  function Login(f: Flow, env: LoginEnv): (run: LoginRun)
    ensures FindAvailablePort(f, env.bindable).Failure? ==>
      && run.steps == []
      && run.result == Failure(Wrap("failed to find available port", FindAvailablePort(f, env.bindable).error, ""))
    ensures FindAvailablePort(f, env.bindable).Success? && f.clientId == "" && RegisterClient(env.registration).Failure? ==>
      run.result == Failure(Wrap("failed to register client", RegisterClient(env.registration).error, ""))
    ensures f.clientId != "" ==> run.flow == f
    // past the port search and the registration, the nonce draw and then the wait decide
    ensures FindAvailablePort(f, env.bindable).Success? && (f.clientId != "" || RegisterClient(env.registration).Success?) ==>
      var port := FindAvailablePort(f, env.bindable).value;
      && (env.draw.Failure? ==> run.result == Failure(Wrap("failed to generate state", GenerateState(env.draw).error, "")))
      && (env.draw.Success? ==>
            run.result == AwaitCallback(run.flow, RedirectUri(port), HexEncode(env.draw.value), env).result)
    ensures run.result.Success? ==>
      && env.first.Callback?
      && env.draw.Success?
      && env.first.query.state == HexEncode(env.draw.value)
      && env.first.query.code != ""
    // a successful login returns exactly what the token endpoint sent for the code
    ensures run.result.Success? ==> run.result == ReadTokenReply("token exchange", env.exchange)
  {
    match FindAvailablePort(f, env.bindable)
    case Failure(e) => LoginRun(Failure(Wrap("failed to find available port", e, "")), f, [])
    case Success(port) =>
      if f.clientId == "" then
        var request := RegistrationRequestFor(f, RedirectUri(port));
        match RegisterClient(env.registration)
        case Failure(e) => LoginRun(Failure(Wrap("failed to register client", e, "")), f, [Registered(request)])
        case Success(creds) =>
          Authorize(SetClientCredentials(f, creds.clientId, creds.clientSecret), port, env, [Registered(request)])
      else
        Authorize(f, port, env, [])
  }

  /** Registration happens exactly when the flow has no client id and a port
      was found; it declares the redirect URI of that port, and its
      credentials are the ones the rest of the run uses. */
  lemma LoginRegistersOnlyWithoutClient(f: Flow, env: LoginEnv)
    requires FindAvailablePort(f, env.bindable).Success?
    ensures var run := Login(f, env);
      |run.steps| > 0 && (run.steps[0].Registered? <==> f.clientId == "")
    ensures var run := Login(f, env);
      run.steps[0].Registered? ==>
        run.steps[0].registration.redirectUris == [RedirectUri(FindAvailablePort(f, env.bindable).value)]
    ensures f.clientId == "" && RegisterClient(env.registration).Success? ==>
      var creds := RegisterClient(env.registration).value;
      Login(f, env).flow == f.(clientId := creds.clientId, clientSecret := creds.clientSecret)
  {
  }

  /** A failed registration ends the run before any nonce, listener or browser. */
  lemma RegistrationFailureStopsEarly(f: Flow, env: LoginEnv)
    requires FindAvailablePort(f, env.bindable).Success?
    requires f.clientId == "" && RegisterClient(env.registration).Failure?
    ensures Login(f, env).result.Failure?
    ensures !Drawn(Login(f, env).steps) && !Started(Login(f, env).steps)
  {
  }

  /** Whenever the listener was started, the run's last step shuts it down. */
  lemma ListenerAlwaysShutDown(f: Flow, env: LoginEnv)
    ensures var run := Login(f, env);
      Started(run.steps) ==> run.steps[|run.steps| - 1] == ServerShutdown
  {
  }
}

=== FILE: project_service.dfy ===
/** The project service (internal/service/project.go). It carries its own
    copy of the authentication check and of `getAPIClient`; both are written
    out here as the file has them, and the copy is proved to decide exactly
    as the authentication service does. */
module ProjectService {
  import opened Wrappers
  import opened Errors
  import opened Resources
  import Config
  import OAuth
  import AuthService
  import Api
  import opened Session

  /** `projectService.ensureAuthenticated`. */
  function EnsureAuthenticated(disk: Config.Disk, now: int, reply: OAuth.Reply<OAuth.TokenResponse>, fault: Option<string>): (e: AuthService.Effect)
    ensures e.result.Success? ==> Config.Load(disk).Success?
    ensures |e.refreshes| <= 1
  {
    match Config.Load(disk)
    case Failure(err) => AuthService.Effect(Failure(Wrap("failed to load config", err, "")), disk, [])
    case Success(c) =>
      if c.accessToken == "" && c.refreshToken == "" then
        AuthService.Effect(Failure(Msg("not logged in. Please run 'kamui login' first")), disk, [])
      else if Config.IsLoggedIn(disk, now) then AuthService.Effect(Success(()), disk, [])
      else if c.refreshToken == "" then
        AuthService.Effect(Failure(Msg("session expired. Please run 'kamui login' again")), disk, [])
      else
        var apiUrl := Config.GetAPIURL(disk).value;
        var flow := OAuth.SetClientCredentials(OAuth.NewFlow(apiUrl), c.clientId, c.clientSecret);
        var call := OAuth.RefreshTokens(flow, c.refreshToken, reply);
        match call.result
        case Failure(err) =>
          AuthService.Effect(Failure(Wrap("failed to refresh token", err, ". Please run 'kamui login' again")), disk, [call.request])
        case Success(t) =>
          match Config.SaveTokens(disk, t.accessToken, t.refreshToken, t.expiresIn, now, fault)
          case Failure(err) => AuthService.Effect(Failure(Wrap("failed to save refreshed tokens", err, "")), disk, [call.request])
          case Success(d) => AuthService.Effect(Success(()), d, [call.request])
  }

  /** The copy computes the same result, the same store and the same refresh
      requests as the authentication service, for every store, instant,
      refresh reply and write outcome. */
  lemma SameDecisionAsAuthService(disk: Config.Disk, now: int, reply: OAuth.Reply<OAuth.TokenResponse>, fault: Option<string>)
    ensures EnsureAuthenticated(disk, now, reply, fault) == AuthService.EnsureAuthenticated(disk, now, reply, fault)
  {
  }

  /** `projectService.getAPIClient`: an authentication failure is passed on
      as it is; afterwards the client gets the store's token (checked without
      the buffer) and API URL. */
  function GetApiClient(env: Env): (s: Connected)
    ensures var e := EnsureAuthenticated(env.disk, env.now, env.refreshReply, env.writeFault);
      && s.disk == e.disk && s.refreshes == e.refreshes
      && (e.result.Failure? ==> s.client == Failure(e.result.error))
      && (e.result.Success? && Config.GetAccessToken(e.disk, env.now).Failure? ==>
            s.client == Failure(Wrap("failed to get access token", Config.GetAccessToken(e.disk, env.now).error, "")))
    ensures s.client.Success? ==>
      && Config.Load(s.disk).Success?
      && s.client.value.token == Config.Load(s.disk).value.accessToken
      && s.client.value.token != ""
      && s.client.value.baseUrl == Config.Load(s.disk).value.apiUrl
  {
    var e := EnsureAuthenticated(env.disk, env.now, env.refreshReply, env.writeFault);
    if e.result.Failure? then Connected(Failure(e.result.error), e.disk, e.refreshes)
    else match Config.GetAccessToken(e.disk, env.now)
      case Failure(err) => Connected(Failure(Wrap("failed to get access token", err, "")), e.disk, e.refreshes)
      case Success(token) =>
        match Config.GetAPIURL(e.disk)
        case Failure(err) => Connected(Failure(Wrap("failed to get API URL", err, "")), e.disk, e.refreshes)
        case Success(apiUrl) => Connected(Success(Api.Client(apiUrl, token)), e.disk, e.refreshes)
  }

  /** `ListProjects`: GET `/api/projects`; an empty body is an empty list. */
  function ListProjects(env: Env, ex: Api.Exchange<seq<Project>>): (s: Served<seq<Project>>)
    ensures GetApiClient(env).client.Failure? ==> s.requests == [] && s.result == Failure(GetApiClient(env).client.error)
    ensures GetApiClient(env).client.Success? ==>
      s.requests == [Api.BuildRequest(GetApiClient(env).client.value, Api.Get, Api.ProjectsPath, Api.NoBody)]
    ensures GetApiClient(env).client.Success? ==>
      Delivers(s.result, ex, [], (ps: seq<Project>) => ps, "failed to fetch projects")
  {
    Through(GetApiClient(env), c => Api.GetInto(c, Api.ProjectsPath, [], ex), "failed to fetch projects")
  }

  function ZeroProject(): Project {
    Project("", "", "", "", "", [])
  }

  /** `GetProject`: GET `/api/projects/{id}`. */
  function GetProject(env: Env, id: string, ex: Api.Exchange<Project>): (s: Served<Project>)
    ensures GetApiClient(env).client.Failure? ==> s.requests == [] && s.result == Failure(GetApiClient(env).client.error)
    ensures GetApiClient(env).client.Success? ==>
      s.requests == [Api.BuildRequest(GetApiClient(env).client.value, Api.Get, Api.ItemPath(Api.ProjectsPath, id), Api.NoBody)]
    ensures s.requests != [] ==>
      Api.ItemId(Api.ProjectsPath, s.requests[0].url[|GetApiClient(env).client.value.baseUrl|..]) == Some(id)
    ensures GetApiClient(env).client.Success? ==>
      Delivers(s.result, ex, ZeroProject(), (p: Project) => p, "failed to fetch project")
  {
    Api.ItemPathRoundTrip(Api.ProjectsPath, id);
    Through(GetApiClient(env), c => Api.GetInto(c, Api.ItemPath(Api.ProjectsPath, id), ZeroProject(), ex), "failed to fetch project")
  }
}

=== FILE: projects_cmd.dfy ===
/** The decisions inside the `kamui projects` commands
    (internal/cmd/projects.go): which output format `list` and `get` use, how
    the create wizard turns its answers into a `CreateProjectInput`, and how
    `delete` finds its project and gates the deletion. The service calls the
    commands make arrive as their outcomes. */
module ProjectsCmd {
  import opened Wrappers
  import opened Text
  import opened Errors
  import opened Resources
  import opened Commands

  // ---------------------------------------------------------------------
  // list and get

  datatype Format = Json | Human

  /** The command's own `--output`, else the one set on the root command;
      "json" selects JSON, every other value the table (or detail) view. */
  function OutputFormat(own: string, inherited: string): (f: Format)
    ensures f == Json <==> own == "json" || (own == "" && inherited == "json")
  {
    var effective := if own != "" then own else inherited;
    if effective == "json" then Json else Human
  }

  /** What a command prints: a value, in a format. */
  datatype Rendered<T> = Rendered(format: Format, value: T)

  /** `projects list`: the service's error is returned without a prefix. */
  function RunList(projects: Outcome<seq<Project>>, own: string, inherited: string): (r: Outcome<Rendered<seq<Project>>>)
    ensures projects.Failure? ==> r == Failure(projects.error)
    ensures projects.Success? ==> r.Success? && r.value.value == projects.value
    ensures r.Success? ==> (r.value.format == Json <==> own == "json" || (own == "" && inherited == "json"))
  {
    match projects
    case Failure(e) => Failure(e)
    case Success(ps) => Success(Rendered(OutputFormat(own, inherited), ps))
  }

  /** `projects get`: likewise for one project. */
  function RunGet(project: Outcome<Project>, own: string, inherited: string): (r: Outcome<Rendered<Project>>)
    ensures project.Failure? ==> r == Failure(project.error)
    ensures project.Success? ==> r.Success? && r.value.value == project.value
    ensures r.Success? ==> (r.value.format == Json <==> own == "json" || (own == "" && inherited == "json"))
  {
    match project
    case Failure(e) => Failure(e)
    case Success(p) => Success(Rendered(OutputFormat(own, inherited), p))
  }

  // ---------------------------------------------------------------------
  // create

  const DescriptionLimit: nat := 80

  /** A description keeps at most its first 80 characters (80 bytes in Go;
      the same for ASCII text). */
  function TruncateDescription(description: string): (r: string)
    ensures |r| == if |description| <= DescriptionLimit then |description| else DescriptionLimit
    ensures HasPrefix(description, r)
  {
    if |description| > DescriptionLimit then description[..DescriptionLimit] else description
  }

  /** Truncating twice is truncating once. */
  lemma TruncateDescriptionIdempotent(description: string)
    ensures TruncateDescription(TruncateDescription(description)) == TruncateDescription(description)
  {
  }

  /** The plan and region pickers: the labels offered and the API value each
      stands for. */
  const PlanChoices: seq<string> := ["Free", "Pro"]
  const PlanTypes: map<string, string> := map["Free" := "free", "Pro" := "pro"]
  const RegionChoices: seq<string> := ["Tokyo", "Singapore"]
  const Regions: map<string, string> := map["Tokyo" := "tokyo", "Singapore" := "singapore"]

  /** Indexing a Go map: a missing key reads as the empty string. */
  function MapGet(m: map<string, string>, key: string): (v: string)
    ensures key in m ==> v == m[key]
    ensures key !in m ==> v == ""
  {
    if key in m then m[key] else ""
  }

  function PlanTypeOf(choice: string): (v: string)
    ensures v == "free" <==> choice == "Free"
    ensures v == "pro" <==> choice == "Pro"
    ensures v == "" <==> choice !in PlanChoices
  {
    MapGet(PlanTypes, choice)
  }

  function RegionOf(choice: string): (v: string)
    ensures v == "tokyo" <==> choice == "Tokyo"
    ensures v == "singapore" <==> choice == "Singapore"
    ensures v == "" <==> choice !in RegionChoices
  {
    MapGet(Regions, choice)
  }

  /** Every label the pickers offer has a value, and different labels have
      different values. */
  lemma PickersAreFaithful(a: string, b: string)
    ensures a in PlanChoices ==> PlanTypeOf(a) != ""
    ensures a in RegionChoices ==> RegionOf(a) != ""
    ensures a in PlanChoices && b in PlanChoices && a != b ==> PlanTypeOf(a) != PlanTypeOf(b)
    ensures a in RegionChoices && b in RegionChoices && a != b ==> RegionOf(a) != RegionOf(b)
  {
  }

  /** The input the wizard hands to `CreateProject`. */
  function CreateInputFor(name: string, description: string, plan: string, region: string): (i: CreateProjectInput)
    ensures i.name == name
    ensures |i.description| <= DescriptionLimit && HasPrefix(description, i.description)
    ensures |description| <= DescriptionLimit ==> i.description == description
    ensures plan in PlanChoices <==> i.planType != ""
    ensures region in RegionChoices <==> i.region != ""
    ensures i.planType == PlanTypeOf(plan) && i.region == RegionOf(region)
  {
    CreateProjectInput(name, TruncateDescription(description), PlanTypeOf(plan), RegionOf(region))
  }

  // ---------------------------------------------------------------------
  // delete

  /** `projects delete`: find the project by id or name, confirm unless
      `--yes`, then delete it by its id. The listing's and the deletion's
      errors are returned without a prefix. */
  function RunDelete(projects: Outcome<seq<Project>>, arg: string, skipConfirm: bool,
                     answer: Prompt, deletion: Outcome<()>): (d: DeleteRun)
    ensures projects.Failure? ==> d == DeleteRun(Failure(projects.error), None, false, "")
    ensures projects.Success? && FindProject(projects.value, arg).Failure? ==>
      d == DeleteRun(Failure(Msg(ProjectNotFoundText(arg))), None, false, "")
    ensures d.deleted.Some? <==>
      projects.Success? && FindProject(projects.value, arg).Success? && Confirmed(skipConfirm, answer)
    ensures d.deleted.Some? ==>
      var p := FindProject(projects.value, arg).value;
      d.deleted.value == p.id && d.result == deletion && d.shown == p.name
    ensures d.cancelled <==>
      projects.Success? && FindProject(projects.value, arg).Success? && !skipConfirm && answer == Answered(false)
    ensures d.cancelled ==> d.result == Success(())
    // an interrupted or failed prompt returns its error as it is
    ensures projects.Success? && FindProject(projects.value, arg).Success? && !skipConfirm && answer.PromptFailed? ==>
      d.result == Failure(answer.err)
  {
    match projects
    case Failure(e) => DeleteRun(Failure(e), None, false, "")
    case Success(ps) =>
      match FindProject(ps, arg)
      case Failure(e) => DeleteRun(Failure(e), None, false, "")
      case Success(p) =>
        if skipConfirm then DeleteRun(deletion, Some(p.id), false, p.name)
        else match answer
          case PromptFailed(e) => DeleteRun(Failure(e), None, false, p.name)
          case Answered(false) => DeleteRun(Success(()), None, true, p.name)
          case Answered(true) => DeleteRun(deletion, Some(p.id), false, p.name)
  }

  /** Naming the first matching project by its name deletes it by its id. */
  lemma DeleteByNameUsesId(projects: seq<Project>, i: nat, answer: Prompt, deletion: Outcome<()>)
    requires i < |projects| && forall j :: 0 <= j < i ==> !Names(projects[j], projects[i].name)
    ensures RunDelete(Success(projects), projects[i].name, true, answer, deletion).deleted == Some(projects[i].id)
  {
    FindProjectIsFirst(projects, projects[i].name, i);
  }

  /** The table cases of the delete command's tests. */
  lemma DeleteCases(answer: Prompt)
    ensures RunDelete(Success([Project("proj-123", "my-project", "", "free", "tokyo", [])]), "my-project", true, answer, Success(())).deleted
      == Some("proj-123")
    ensures RunDelete(Success([Project("proj-456", "another-project", "", "pro", "tokyo", [])]), "proj-456", true, answer, Success(())).deleted
      == Some("proj-456")
    ensures RunDelete(Success([]), "nonexistent", true, answer, Success(()))
      == DeleteRun(Failure(Msg(ProjectNotFoundText("nonexistent"))), None, false, "")
    ensures var d := RunDelete(Success([Project("proj-fail", "failing-project", "", "", "", [])]), "failing-project", true, answer,
                               Failure(Msg("delete failed")));
      d.deleted == Some("proj-fail") && d.result == Failure(Msg("delete failed"))
  {
    FindProjectIsFirst([Project("proj-fail", "failing-project", "", "", "", [])], "failing-project", 0);
    FindProjectIsFirst([Project("proj-123", "my-project", "", "free", "tokyo", [])], "my-project", 0);
    FindProjectIsFirst([Project("proj-456", "another-project", "", "pro", "tokyo", [])], "proj-456", 0);
  }
}

=== FILE: resources.dfy ===
/** The records the services and commands exchange
    (internal/service/interface/project.go and app.go). Timestamps and
    databases of a project are carried by the API but never inspected by the
    modelled code, so they are left out. A nil pointer is `None`. */
module Resources {
  import opened Wrappers

  /** Pod counts per state, for a project or an app. */
  datatype ProjectStatus = ProjectStatus(running: int, stopped: int, error: int, unknown: int)

  datatype App = App(
    id: string,
    name: string,          // the `app_name` the API knows the app by
    displayName: string,
    status: Option<ProjectStatus>,
    url: string,
    appType: string)

  datatype Project = Project(
    id: string,
    name: string,
    description: string,
    planType: string,
    region: string,
    apps: seq<App>)

  datatype Branch = Branch(name: string, protected: bool)

  datatype Installation = Installation(id: int, repository: string, owner: string, ownerType: string)

  datatype CreateProjectInput = CreateProjectInput(name: string, description: string, planType: string, region: string)

  /** `CreateAppInput`; a nil environment map is `None`. */
  datatype CreateAppInput = CreateAppInput(
    projectId: string,
    appName: string,
    displayName: string,
    language: string,
    deployType: string,
    owner: string,
    ownerType: string,
    repository: string,
    branch: string,
    directory: string,
    startCommand: string,
    setupCommand: string,
    preCommand: string,
    replicas: int,
    envVars: Option<map<string, string>>,
    healthCheckPath: string,
    databaseId: string)

  /** The fields `CreateStaticApp` reads from its input. */
  datatype CreateStaticAppInput = CreateStaticAppInput(
    appName: string,
    projectId: string,
    replicas: int,
    appSpecType: string,
    deployType: string,
    organizationName: string,
    ownerType: string,
    repositoryName: string,
    repositoryBranch: string,
    directory: string)

  /** The fields `CreateStaticAppUpload` reads from its input. */
  datatype CreateStaticAppUploadInput = CreateStaticAppUploadInput(
    projectId: string, appName: string, replicas: int, appSpecType: string, filePath: string)

  datatype CreateAppOutput = CreateAppOutput(id: string, name: string)

  datatype AppDetail = AppDetail(
    id: string,
    displayName: string,
    appType: string,
    languageType: string,
    url: string,
    customDomain: string,
    githubOrgRepo: string,
    githubBranch: string,
    status: Option<ProjectStatus>)
}

=== FILE: session.dfy ===
/** What the project and app services share: the inputs of one call
    (the credential store, the instant, the token endpoint's reply should a
    refresh be due, and the outcome of the store's write), and how an API
    call runs once a client has been obtained. */
module Session {
  import opened Wrappers
  import opened Errors
  import Config
  import OAuth
  import Api

  datatype Env = Env(
    disk: Config.Disk,
    now: int,
    refreshReply: OAuth.Reply<OAuth.TokenResponse>,
    writeFault: Option<string>)

  /** The result of `getAPIClient`, with the store and refreshes it left behind. */
  datatype Connected = Connected(client: Outcome<Api.Client>, disk: Config.Disk, refreshes: seq<OAuth.TokenRequest>)

  /** A service call: its result, the store afterwards, the refresh requests
      and the API requests it sent. */
  datatype Served<T> = Served(
    result: Outcome<T>,
    disk: Config.Disk,
    refreshes: seq<OAuth.TokenRequest>,
    requests: seq<Api.HttpRequest>)

  function Sent<T>(call: Api.Call<T>): seq<Api.HttpRequest> {
    if call.request.Some? then [call.request.value] else []
  }

  /** Run `call` on the session's client, prefixing its error with `context`;
      a session without a client sends nothing and passes its error on. */
  function Through<T>(session: Connected, call: Api.Client -> Api.Call<T>, context: string): (s: Served<T>)
    ensures s.disk == session.disk && s.refreshes == session.refreshes
    ensures session.client.Failure? ==> s.requests == [] && s.result == Failure(session.client.error)
    ensures session.client.Success? ==>
      var made := call(session.client.value);
      && s.requests == Sent(made)
      && (made.result.Success? ==> s.result == made.result)
      && (made.result.Failure? ==> s.result == Failure(Wrap(context, made.result.error, "")))
  {
    match session.client
    case Failure(e) => Served(Failure(e), session.disk, session.refreshes, [])
    case Success(client) =>
      var made := call(client);
      match made.result
      case Failure(e) => Served(Failure(Wrap(context, e, "")), session.disk, session.refreshes, Sent(made))
      case Success(v) => Served(Success(v), session.disk, session.refreshes, Sent(made))
  }

  /** What a service read delivers once it holds a client: the API reply read
      into a record whose untouched value is `zero`, converted by `f`, or the
      API call's error wrapped with the service's `context`. */
  ghost predicate Delivers<T, U>(r: Outcome<U>, ex: Api.Exchange<T>, zero: T, f: T -> U, context: string) {
    && (r.Success? <==> Api.Classify(ex, true).Success?)
    && (r.Success? ==> r.value == f(if ex.response.bodyEmpty then zero else ex.response.decoded.value))
    && (r.Failure? ==> r.error == Wrap(context, Api.Classify(ex, true).error, ""))
  }

  /** Transform a successful result, keeping everything else. */
  function MapServed<T, U>(s: Served<T>, f: T -> U): (r: Served<U>)
    ensures r.disk == s.disk && r.refreshes == s.refreshes && r.requests == s.requests
    ensures r.result.Success? <==> s.result.Success?
    ensures r.result.Success? ==> r.result.value == f(s.result.value)
    ensures r.result.Failure? ==> r.result.error == s.result.error
  {
    match s.result
    case Failure(e) => Served(Failure(e), s.disk, s.refreshes, s.requests)
    case Success(v) => Served(Success(f(v)), s.disk, s.refreshes, s.requests)
  }
}

=== FILE: text.dfy ===
/** String and byte helpers the CLI takes from Go's standard library:
    `strings.HasPrefix`, `fmt`'s `%d` verb and `encoding/hex`.
    A Go `string` is a byte string; here a `string` is a sequence of
    characters with no UTF-8 encoding, so Go's byte-wise `len` and slicing
    agree with the model's lengths and slices only for ASCII text. */
module Text {
  import opened Wrappers

  newtype byte = b: int | 0 <= b < 256

  /** `strings.HasPrefix(s, prefix)`. */
  predicate HasPrefix(s: string, prefix: string) {
    |prefix| <= |s| && s[..|prefix|] == prefix
  }

  /** `strings.HasSuffix(s, suffix)`. */
  predicate HasSuffix(s: string, suffix: string) {
    |suffix| <= |s| && s[|s| - |suffix|..] == suffix
  }

  lemma PrefixOfConcat(a: string, b: string)
    ensures HasPrefix(a + b, a)
    ensures HasSuffix(a + b, b)
  {
    assert (a + b)[..|a|] == a;
    assert (a + b)[|a + b| - |b|..] == b;
  }

  // ---------------------------------------------------------------------
  // Decimal rendering, the `%d` verb of fmt.Sprintf

  predicate IsDigit(c: char) {
    '0' <= c <= '9'
  }

  predicate AllDigits(s: string) {
    forall i :: 0 <= i < |s| ==> IsDigit(s[i])
  }

  function DigitChar(d: int): (c: char)
    requires 0 <= d < 10
    ensures IsDigit(c)
  {
    ('0' as int + d) as char
  }

  /** Canonical decimal digits of `n`: at least one digit and no leading zero. */
  function NatToString(n: nat): (s: string)
    ensures 1 <= |s|
    ensures AllDigits(s)
    ensures s[0] == '0' ==> n == 0
    decreases n
  {
    if n < 10 then [DigitChar(n)] else NatToString(n / 10) + [DigitChar(n % 10)]
  }

  /** `fmt.Sprintf("%d", i)`: a minus sign in front of negative numbers. */
  function IntToString(i: int): (s: string)
    ensures 1 <= |s|
    ensures i >= 0 ==> AllDigits(s)
    ensures i < 0 ==> s[0] == '-' && AllDigits(s[1..])
  {
    if i < 0 then "-" + NatToString(-i) else NatToString(i)
  }

  /** The number a digit string denotes; the reading direction of `NatToString`. */
  function DigitsValue(s: string): nat
    requires AllDigits(s)
  {
    if |s| == 0 then 0 else 10 * DigitsValue(s[..|s| - 1]) + (s[|s| - 1] as int - '0' as int)
  }

  /** Reading back the digits `%d` prints gives the number printed. */
  lemma {:induction false} NatToStringRoundTrip(n: nat)
    ensures DigitsValue(NatToString(n)) == n
    decreases n
  {
    if n >= 10 {
      var s := NatToString(n / 10);
      NatToStringRoundTrip(n / 10);
      var t := s + [DigitChar(n % 10)];
      assert NatToString(n) == t;
      assert t[..|t| - 1] == s;
    }
  }

  /** Different numbers print differently. */
  lemma IntToStringInjective(a: int, b: int)
    requires IntToString(a) == IntToString(b)
    ensures a == b
  {
    if a < 0 && b < 0 {
      assert IntToString(a)[1..] == NatToString(-a);
      assert IntToString(b)[1..] == NatToString(-b);
      NatToStringRoundTrip(-a);
      NatToStringRoundTrip(-b);
    } else if a >= 0 && b >= 0 {
      NatToStringRoundTrip(a);
      NatToStringRoundTrip(b);
    }
  }

  // ---------------------------------------------------------------------
  // Base16 encoding as `hex.EncodeToString` writes it (RFC 4648, section 8),
  // with lower-case digits

  predicate IsLowerHex(c: char) {
    '0' <= c <= '9' || 'a' <= c <= 'f'
  }

  function HexChar(v: int): (c: char)
    requires 0 <= v < 16
    ensures IsLowerHex(c)
  {
    if v < 10 then ('0' as int + v) as char else ('a' as int + v - 10) as char
  }

  function HexValue(c: char): (v: int)
    requires IsLowerHex(c)
    ensures 0 <= v < 16
    ensures HexChar(v) == c
  {
    if c <= '9' then c as int - '0' as int else c as int - 'a' as int + 10
  }

  /** Two digits per byte, high nibble first. */
  function HexEncode(bs: seq<byte>): (s: string)
    ensures |s| == 2 * |bs|
    ensures forall i :: 0 <= i < |s| ==> IsLowerHex(s[i])
  {
    if |bs| == 0 then ""
    else [HexChar(bs[0] as int / 16), HexChar(bs[0] as int % 16)] + HexEncode(bs[1..])
  }

  /** The decoder a reader of the encoding would use: lower-case pairs only. */
  function HexDecode(s: string): Option<seq<byte>>
    decreases |s|
  {
    if |s| == 0 then Some([])
    else if |s| == 1 || !IsLowerHex(s[0]) || !IsLowerHex(s[1]) then None
    else match HexDecode(s[2..])
      case None => None
      case Some(rest) => Some([(16 * HexValue(s[0]) + HexValue(s[1])) as byte] + rest)
  }

  /** Decoding an encoding recovers the bytes. */
  lemma {:induction false} HexRoundTrip(bs: seq<byte>)
    ensures HexDecode(HexEncode(bs)) == Some(bs)
  {
    if |bs| > 0 {
      var b := bs[0] as int;
      var s := HexEncode(bs);
      assert s == [HexChar(b / 16), HexChar(b % 16)] + HexEncode(bs[1..]);
      assert s[2..] == HexEncode(bs[1..]);
      HexRoundTrip(bs[1..]);
      assert HexValue(s[0]) == b / 16 by {
        assert HexChar(HexValue(s[0])) == HexChar(b / 16);
      }
      assert HexValue(s[1]) == b % 16 by {
        assert HexChar(HexValue(s[1])) == HexChar(b % 16);
      }
      assert [bs[0]] + bs[1..] == bs;
    }
  }

  /** So two byte strings with the same encoding are equal. */
  lemma HexEncodeInjective(a: seq<byte>, b: seq<byte>)
    requires HexEncode(a) == HexEncode(b)
    ensures a == b
  {
    HexRoundTrip(a);
    HexRoundTrip(b);
  }
}

=== FILE: wrappers.dfy ===
/** Failure-compatible wrappers shared by every module of the model.
    `Option` stands for Go's nil-able pointers, `Result` for Go's
    `(value, error)` return pairs. */
module Wrappers {

  datatype Option<+T> = None | Some(value: T) {

    predicate IsFailure() {
      None?
    }

    function PropagateFailure<U>(): Option<U>
      requires None?
    {
      None
    }

    function Extract(): T
      requires Some?
    {
      value
    }

    function GetOr(default: T): T {
      if Some? then value else default
    }
  }

  datatype Result<+T, +E> = Success(value: T) | Failure(error: E) {

    predicate IsFailure() {
      Failure?
    }

    function PropagateFailure<U>(): Result<U, E>
      requires Failure?
    {
      Failure(error)
    }

    function Extract(): T
      requires Success?
    {
      value
    }
  }
}
